=== FILE: README.md ===
# FontMuse preferences and font catalogue, modelled in Dafny

FontMuse is a Tauri desktop application that previews installed fonts. This
project models three parts of it as pure functions over immutable data:

- **The theme controller.** This is `ThemeProvider` with its helpers. A mode
  (`light`, `dark` or `system`) resolves to a concrete appearance. The
  provider follows OS appearance changes only in `system` mode and stores the
  mode as text in `settings/theme.txt`. It renders nothing until it has
  mounted. Its state is the record `{theme, resolved, mounted, listening}`
  plus the document/window `View`. Its effects are the transitions `Init`,
  `Load`, `SystemChanged` and `SetTheme`. React's rule that an effect reruns
  only when its dependencies (`theme`, `mounted`) change is modelled by
  `Commit`.
- **The language preference.** The system language is normalised to `en` or
  `ru`. The user's choice is stored in `settings/language.txt`. Startup picks
  "stored if non-empty, else system", with `en` as the fallback.
  `changeLanguage` switches first and persists second.
- **The font catalogue.** Directory entries are classified by a `.ttf`/`.otf`
  extension, ignoring case. A font is named after the file stem and flagged as
  a system font by the root directory it was found under. The list is sorted
  by lower-cased name. The page then filters it by "hide system fonts" and by
  a case-insensitive search.

Host calls are inputs:

- The app-local-data directory is a `Storage.Disk` (a map of files plus a set
  of directories). A `Storage.Faults` value says which `exists`, `mkdir`,
  `readTextFile` and `writeTextFile` calls throw.
- `matchMedia` is an `Appearance`. The native window `setTheme` is a success
  flag. The native language command's answer is a `Result`. Windows' LCID
  is a number.
- Font directories are a map from root path to a tree of `Entry` values. A
  root that is missing or unreadable has no entry in the map.

The theme file is not checked against the three modes: a stored text that
names no mode is still adopted, verbatim, whenever it is non-empty (`lib/theme/utils.ts:50`,
`components/providers/ThemeProvider.tsx:33-34`). So `ThemeState.theme` and
`ThemeState.resolved` are texts. `ThemeProvider.CorruptStoredThemeLeaks`
shows that a file containing `purple` makes `purple` the resolved appearance.
The validity invariant `ThemeProvider.Valid` is proved to be preserved only
for stored values that name a mode. A stored text with white space inside it
(`dark mode`) goes further: the document's class list refuses it, so the
resolve effect throws after removing both appearance classes and before the
window is synced; `ThemeProvider.InnerSpaceThemeStopsBeforeSync` shows this.

The Linux font command is also modelled as written. It reads each root once
for its files and then calls `scan_subdirectories` on the same root, which
reads the root's files a second time (`src-tauri/src/main.rs:229-237`). So a
font lying directly in a Linux root is listed twice;
`FontScan.LinuxFontsDuplicatesTopLevel` states this.

## Model

| member | source | states |
|---|---|---|
| ThemeTypes.ThemeDomain | lib/theme/types.ts:1 | a text names a theme mode exactly when it is `light`, `dark` or `system` |
| ThemeTypes.ParseName | lib/theme/types.ts:1 | every mode's text form is recognised as that mode again |
| ThemeTypes.StorageFileInsideDir | lib/theme/types.ts:5-6 | the theme file is `settings` + `/theme.txt`, and its parent directory is `settings` |
| ThemeUtils.GetSystemTheme | lib/theme/utils.ts:12-17 | always `light` or `dark`; `dark` exactly when a window exists and the dark-scheme query matches |
| ThemeUtils.InitThemeStorage | lib/theme/utils.ts:20-34 | files untouched; at most the settings directory is added, and only when it was absent; it exists afterwards exactly when it existed or could be checked and created; failures are swallowed |
| ThemeUtils.InitThemeStorageIdempotent | lib/theme/utils.ts:20-34 | running the directory initialisation twice leaves the disk as running it once |
| ThemeUtils.GetStoredTheme | lib/theme/utils.ts:37-55 | a value exactly when the existence check and the read succeed on an existing theme file; that value is the file trimmed; every failure yields none |
| ThemeUtils.StoredThemeNotValidated | lib/theme/utils.ts:47-50 | a theme file holding `purple` is returned as `purple`, which is not a mode: no domain check |
| ThemeUtils.SaveTheme | lib/theme/utils.ts:58-67 | the theme file gets the mode's text exactly when the save lands; even when the directory step failed, the write is still attempted; no other file changes; at most the settings directory is added |
| ThemeUtils.SaveThemeIdempotent | lib/theme/utils.ts:58-67 | saving the same mode twice leaves the disk as saving it once |
| ThemeUtils.ThemeRoundTrip | lib/theme/utils.ts:47-50 | after a save that lands, the stored theme reads back as the saved mode's text and parses to that mode |
| ThemeUtils.SyncWindowTheme | lib/theme/utils.ts:70-82 | exactly one native call; only when it succeeds are the window theme and the background (`rgb(9, 9, 11)` for dark, `rgb(255, 255, 255)` otherwise) updated; a failure changes nothing |
| Text.Lower | app/page.tsx:45 | lower-casing keeps the length and folds each character on its own: `A`-`Z` become `a`-`z`, every other character is kept (also used at lib/i18n.ts:44 and src-tauri/src/main.rs:109, 120) |
| ThemeUtils.ThemeOfEvent | components/providers/ThemeProvider.tsx:60 | a change notification resolves to `dark` exactly when it reports a dark scheme, otherwise `light` |
| ThemeUtils.BackgroundFor | lib/theme/utils.ts:77-78 | `dark` paints `rgb(9, 9, 11)`; every other value, `light` and any unrecognised text alike, paints `rgb(255, 255, 255)` |
| ThemeUtils.ApplyClass | components/providers/ThemeProvider.tsx:47-48 | a token the class list accepts is present afterwards, and for a concrete appearance it is the only one of `light`/`dark`; a refused token (empty or with ASCII white space) leaves the list with both appearance classes removed and nothing added; unrelated classes are kept |
| ThemeUtils.ApplyResolved | components/providers/ThemeProvider.tsx:47-51 | an accepted value updates the classes and makes one window sync, leaving exactly one appearance class for `light`/`dark`; when the native call succeeds the window theme becomes that value and the background is the one `BackgroundFor` gives it, and when it fails both stay as they were; a refused value stops after the removal, with no sync |
| ThemeProvider.Init | components/providers/ThemeProvider.tsx:20-28 | the first state holds the default mode, is not mounted, renders nothing and has no listener; its appearance is the system's guess |
| ThemeProvider.Commit | components/providers/ThemeProvider.tsx:40-67 | a render that changes neither `theme` nor `mounted` changes nothing; unmounted renders resolve, apply and subscribe nothing; a mounted render resolves `system` to the OS appearance and any other mode to itself, subscribes exactly in `system` mode, and syncs once unless the class list refuses the resolved text, in which case only the appearance classes are removed; a successful sync sets the window theme to the resolved text and paints its background, a failed one leaves both |
| ThemeProvider.Load | components/providers/ThemeProvider.tsx:30-38 | the provider mounts in every case; a non-empty stored text becomes the theme verbatim, while none or an empty text keeps the current one |
| ThemeProvider.LoadResolves | components/providers/ThemeProvider.tsx:41-51 | mounting resolves `system` to the OS appearance and any other mode to itself, subscribes only in `system` mode, and syncs the window once exactly when the class list accepts the resolved text |
| ThemeProvider.SystemChanged | components/providers/ThemeProvider.tsx:58-66 | while subscribed, the resolved appearance follows the notification and is applied; otherwise the state is untouched |
| ThemeProvider.SetTheme | components/providers/ThemeProvider.tsx:72-75 | the in-memory mode becomes the requested one whatever the save does; a new mode on a mounted provider resolves (`system` to the OS appearance), syncs once and subscribes exactly in `system` mode; the theme file gets the mode's text exactly when the save lands, no other file changes, and at most the settings directory is added |
| ThemeProvider.LoadPreservesValid | components/providers/ThemeProvider.tsx:32-37 | loading nothing, an empty text or a mode's text keeps the controller valid: listener iff mounted in system mode, resolved concrete, exactly one appearance class |
| ThemeProvider.SystemChangedPreservesValid | components/providers/ThemeProvider.tsx:59-65 | an OS change keeps the controller valid |
| ThemeProvider.SetThemePreservesValid | lib/theme/types.ts:10-11 | `setTheme` with any mode, `system` included, keeps `resolvedTheme` concrete and the controller valid |
| ThemeProvider.SetSystemFollowsOs | lib/theme/types.ts:11 | choosing `system` subscribes to OS changes and resolves to the OS appearance |
| ThemeProvider.OsChangeIgnoredUnlessSystem | components/providers/ThemeProvider.tsx:55-58 | unmounted, or in an explicit mode, an OS change leaves the state unchanged: the resolved appearance is frozen |
| ThemeProvider.OsChangeFollowedInSystemMode | components/providers/ThemeProvider.tsx:58-65 | mounted in `system` mode, an OS change sets the resolved appearance to the notified one and syncs the window once; when the native call succeeds the background becomes the notified appearance's |
| ThemeProvider.LeavingSystemUnsubscribes | components/providers/ThemeProvider.tsx:59 | switching to `light` or `dark` leaves no listener subscribed |
| ThemeProvider.SetThemeIndependentOfSave | components/providers/ThemeProvider.tsx:72-75 | the in-memory state after `setTheme` does not depend on whether the save fails |
| ThemeProvider.SetThemeIdempotent | components/providers/ThemeProvider.tsx:72-75 | setting the same mode twice leaves state, view, native-call count and disk as setting it once |
| ThemeProvider.LoadStoredMode | components/providers/ThemeProvider.tsx:32-43 | loading a mode's text into a fresh provider adopts that mode, resolves it and yields a valid state |
| ThemeProvider.RestartRestoresTheme | components/providers/ThemeProvider.tsx:72-75 | after `setTheme` whose save lands, a restarted provider loads that mode and resolves it accordingly |
| ThemeProvider.FreshInstallFollowsSystem | components/providers/ThemeProvider.tsx:22-37 | with no theme file, the default provider mounts in `system` mode, subscribes, and shows the OS appearance |
| ThemeProvider.InnerSpaceThemeStopsBeforeSync | components/providers/ThemeProvider.tsx:33-51 | a stored `dark mode` is adopted and resolved verbatim, both appearance classes are removed, nothing is added, the window is not synced and nothing is subscribed |
| ThemeProvider.CorruptStoredThemeLeaks | lib/theme/utils.ts:50 | a stored `purple` becomes the resolved appearance; no `light`/`dark` class remains, and the light background is painted |
| NativeLanguage.GetSystemLanguage | src-tauri/src/main.rs:35-45 | `ru` exactly on Windows with LCID 1049; `en` otherwise, including every macOS and Linux build |
| I18n.LanguageFileInsideDir | lib/i18n.ts:14-15 | the language file is `settings` + `/language.txt`, inside the settings directory |
| I18n.EnsureSettingsDirectory | lib/i18n.ts:23-38 | succeeds exactly when the existence check does not throw and `settings` already exists (as a directory or as a file, in which case nothing is created) or can be created; creates the directory only when nothing by that name exists; files are untouched; otherwise the failure is passed on |
| I18n.EnsureSettingsDirectoryIdempotent | lib/i18n.ts:23-38 | after one success, a second call succeeds with the same disk |
| I18n.GetSystemLanguage | lib/i18n.ts:41-49 | always `en` or `ru`; `ru` exactly when the native call succeeds and its lower-cased answer starts with `ru` |
| I18n.SystemLanguageFromPlatform | lib/i18n.ts:41-49 | normalisation returns every native answer unchanged, so the system language is `ru` only on a Windows build with LCID 1049; a stored language still takes precedence at startup on every platform |
| I18n.GetStoredLanguage | lib/i18n.ts:52-72 | a value exactly when the check and read succeed on an existing language file; the value is the trimmed contents; a missing file or any failure yields none |
| I18n.SaveLanguage | lib/i18n.ts:75-87 | the language file gets the text exactly when the save lands; a failed directory step skips the write and leaves the disk as it was; no other file changes |
| I18n.InitialLanguage | lib/i18n.ts:94 | a non-empty stored text wins; none or empty falls back to the system language |
| I18n.InitializeI18n | lib/i18n.ts:90-119 | the fallback language is always `en`; a failed initialisation yields `en`; otherwise the stored-or-system choice |
| I18n.NoStoredLanguageUsesSystem | lib/i18n.ts:92-94 | with no language file the app starts in the system language, which is `en` or `ru` |
| I18n.ChangeLanguage | lib/i18n.ts:122-125 | the active language becomes the requested one whatever the save does, and the fallback is kept; the language file gets the code exactly when the save lands; no other file changes; a failed directory step leaves the disk as it was |
| I18n.InitializeWithStored | lib/i18n.ts:92-94 | a non-empty stored language is chosen over the system language |
| I18n.LanguageRoundTrip | lib/i18n.ts:81-83 | after `changeLanguage` whose save lands, re-initialisation selects that language, whatever the system language |
| Preferences.SharedDirectorySeparateFiles | lib/i18n.ts:14-15 | the theme and the language share the `settings` directory but are stored in different files |
| Preferences.LanguageSaveKeepsTheme | lib/i18n.ts:79-83 | saving the language leaves the stored theme unchanged |
| Preferences.ThemeSaveKeepsLanguage | lib/theme/utils.ts:58-63 | saving the theme leaves the stored language unchanged |
| Preferences.ThemeSaveAtLeastAsPermissive | lib/theme/utils.ts:31-33 | when the language save lands, the theme save lands too (if its own file can be written) |
| Preferences.DirectoryCheckFailureSplitsThePaths | lib/i18n.ts:32-36 | if checking for an existing settings directory throws, the theme is still written but the language write is skipped |
| Fonts.Extension | src-tauri/src/main.rs:119 | an extension exists only for real file names, and it contains no dot |
| Fonts.Stem | src-tauri/src/main.rs:122 | a stem exists exactly for real file names, and it is never empty |
| Fonts.StemExtensionSplit | src-tauri/src/main.rs:119-122 | stem, a dot and extension put back together give the name; without an extension the stem is the whole name and the name has no dot except perhaps a lone leading one |
| Fonts.ProcessFontEntry | src-tauri/src/main.rs:115-132 | a font exactly when the extension is `ttf` or `otf` ignoring case and a stem exists; the font is named by the stem, has the full path, and carries the caller's flag |
| Fonts.UpperCaseExtensionAccepted | src-tauri/src/main.rs:120-121 | `FOO.TTF` is accepted as the font `FOO` |
| Fonts.LoneLeadingDotIsNoExtension | src-tauri/src/main.rs:119 | `.ttf` has no extension and is not a font |
| FontSort.Insert | src-tauri/src/main.rs:109 | inserting into a sorted list gives a sorted list with exactly one more occurrence of the element |
| FontSort.SortFonts | src-tauri/src/main.rs:109 | the result is a permutation of the input, non-decreasing by lower-cased name |
| FontScan.ScanFlat | src-tauri/src/main.rs:87-93 | at most one font per entry, each carrying the root's flag |
| FontScan.ScanFlatFindsExactly | src-tauri/src/main.rs:87-93 | the root loop's result contains a font exactly when some entry yields it: nothing is invented, nothing is missed |
| FontScan.ScanTree | src-tauri/src/main.rs:245-258 | every font the recursive scan finds carries the root's flag |
| FontScan.ScanTreeFindsExactly | src-tauri/src/main.rs:245-258 | the recursive scan contains a font exactly when a file below the directory, reached through readable directories at any depth, yields that font |
| FontScan.FlatRoot | src-tauri/src/main.rs:164-173 | a missing or unreadable root contributes nothing; every font it yields carries its flag |
| FontScan.LinuxRoot | src-tauri/src/main.rs:227-238 | a missing or unreadable Linux root contributes nothing; every font it yields carries its flag |
| FontScan.WindowsFonts | src-tauri/src/main.rs:81-112 | always `Ok`; sorted; exactly the fonts of `%WINDIR%\Fonts` (flagged system) plus those of the user font directory (flagged non-system), with unset variables contributing nothing |
| FontScan.WindowsSystemFlag | src-tauri/src/main.rs:85-102 | a reported font is flagged system only when it came from the Windows font directory, and non-system only when it came from the user font directory |
| FontScan.MacFontDirs | src-tauri/src/main.rs:158-162 | three roots, `/System/Library/Fonts`, `/Library/Fonts` and `$HOME/Library/Fonts`; with `HOME` unset the third is `/Library/Fonts` again |
| FontScan.MacCollect | src-tauri/src/main.rs:164-173 | every collected font lies in the flat listing of one of the roots, with that root's flag |
| FontScan.MacCollectComplete | src-tauri/src/main.rs:164-173 | every font a root's flat listing yields is collected, whichever root it is |
| FontScan.MacFontsComplete | src-tauri/src/main.rs:164-176 | every font file lying directly in one of the macOS roots is reported by the command |
| FontScan.MacFonts | src-tauri/src/main.rs:154-177 | always `Ok`; sorted; a permutation of the fonts collected from the three macOS roots |
| FontScan.MacRootFlags | src-tauri/src/main.rs:158-165 | `/System/Library/Fonts` is a system root; `/Library/Fonts` is not; the home root is not when `HOME` is unset |
| FontScan.MacSystemFlag | src-tauri/src/main.rs:165 | every macOS font lies in the listing of one of the three roots and carries the flag that root's `/System` prefix test gives |
| FontScan.LinuxFontDirs | src-tauri/src/main.rs:220-225 | four roots, the two `/usr` ones, `$HOME/.local/share/fonts` and `/System/Fonts`; with `HOME` unset the third is `/.local/share/fonts` |
| FontScan.LinuxCollect | src-tauri/src/main.rs:227-239 | every collected font lies in one root's flat-plus-recursive contribution, with that root's flag |
| FontScan.LinuxCollectComplete | src-tauri/src/main.rs:227-239 | every font a root's flat-plus-recursive contribution yields is collected, whichever root it is |
| FontScan.LinuxFontsFindsBelow | src-tauri/src/main.rs:227-258 | every font file below one of the Linux roots, at any depth reached through readable directories, is reported by the command |
| FontScan.LinuxFonts | src-tauri/src/main.rs:216-243 | always `Ok`; sorted; a permutation of the fonts collected from the four Linux roots, each root scanned flat and then recursively |
| FontScan.LinuxRootFlags | src-tauri/src/main.rs:220-228 | the `/usr` roots and `/System/Fonts` are system roots; the home root is not when `HOME` is unset |
| FontScan.LinuxSystemFlag | src-tauri/src/main.rs:228 | every Linux font lies in the contribution of one of the four roots and carries the flag that root's `/usr`-or-`/System` prefix test gives |
| FontScan.FlatFinds | src-tauri/src/main.rs:229-233 | the root loop reports every font among the root's entries |
| FontScan.LinuxRootDuplicatesTopLevel | src-tauri/src/main.rs:229-237 | a font file directly in a Linux root occurs at least twice in that root's contribution |
| FontScan.LinuxFontsDuplicatesTopLevel | src-tauri/src/main.rs:229-241 | a font file directly in `/usr/share/fonts` occurs at least twice in the sorted Linux result |
| FontScan.NoReadableDirectories | src-tauri/src/main.rs:111 | with no readable font directory every platform answers `Ok` with an empty list |
| FontPage.FilterFonts | app/page.tsx:42-48 | an order-preserving subsequence of the fonts; each font kept by the predicate occurs as often as in the input, and each other font not at all |
| FontPage.SystemFilterExcludes | app/page.tsx:43 | with hiding on, system fonts are excluded; with hiding off, the system flag makes no difference |
| FontPage.SearchMatchesSubstring | app/page.tsx:44-45 | with a non-empty search, a font passing the system filter is kept exactly when the lower-cased search occurs at some position of its lower-cased name |
| FontPage.EmptySearchKeepsUnhidden | app/page.tsx:44-47 | with an empty search, a font is kept exactly when it is in the list and not hidden by the system filter |
| FontPage.NoFilterKeepsAll | app/page.tsx:42-48 | with hiding off and an empty search the result is the whole list |
| FontPage.FilterIdempotent | app/page.tsx:42-48 | filtering the filtered list by the same settings changes nothing |
| FontPage.LoadFonts | app/page.tsx:30-40 | loading ends in every case; success replaces the list and keeps the error; failure keeps the list and sets the error to the message of an `Error`, or to "Failed to load fonts" otherwise |
| FontPage.FirstLoadErrorOnlyOnFailure | app/page.tsx:20-39 | from the page's first state, the error is set exactly when the load fails |
| Text.Trim | lib/theme/utils.ts:50 | the trimmed text has no white space at either end |
| Text.TrimRemovesOnlyWhitespace | lib/i18n.ts:67 | trimming removes only white space: the result is a slice of the input with only white space before and after it |
| Text.ContainsIff | app/page.tsx:45 | the substring search agrees with "occurs at some position" |
| Text.LexLeqTotal | src-tauri/src/main.rs:109 | any two names are ordered one way or the other |
| Text.LexLeqTrans | src-tauri/src/main.rs:109 | the name ordering is transitive |

## Left out

- Real I/O. The filesystem, Tauri `invoke`, `matchMedia` and the native window `setTheme` are inputs, including their failures.
- React scheduling and context plumbing (`useTheme`, `I18nProvider`, `Providers`, `app/layout.tsx`). Effects are explicit transitions; the two state updates in the load callback are one batched render.
- Diagnostics and lossy conversions: the `console.error` call in every catch block (lib/theme/utils.ts:32, 52, 65, 80; lib/i18n.ts:35, 46, 69, 85) is not modelled, and neither is `to_string_lossy` on font names, paths and extensions (src-tauri/src/main.rs:120-125, 182-187, 263-268), which replaces bytes that are not UTF-8 with U+FFFD; names are modelled as text already.
- Overlapping asynchronous saves and window syncs. Each save, and each `syncWindowTheme` (called without `await` from both effects), is modelled as completing within its own transition. When calls overlap, the final file contents, window theme and background depend on the order in which they finish, and that order is not modelled.
- The i18next library: translation lookup, language-fallback resolution and `initReactI18next`. Only the chosen language string is modelled.
- ThemeProvider.Commit: when the class list refuses the resolved text, the model stops the resolve effect after the removal, as the thrown error does. What React then does with the uncaught effect error is not modelled; without an error boundary it unmounts the tree.
- I18n.InitializeI18n: assumes the English fallback initialisation succeeds. A second failure would reject the promise, and that is not modelled.
- I18n.ChangeLanguage: assumes `i18next.changeLanguage` resolves. If it rejected, the save would not run, and that path is not modelled.
- Text.Lower: folds ASCII letters only. JavaScript `toLowerCase` and Rust `to_lowercase` fold all of Unicode, so non-ASCII font names and search texts are compared as given.
- FontSort.SortFonts: proves sortedness and permutation, not stability. Rust's `sort_by` is stable; the insertion sort used here is stable too, but the model does not state it.
- FontPage.LoadFonts: keeps the list in the order the command returned it. The page's `localeCompare` re-sort is locale-dependent. The search debounce is timer-based and its hook is not part of this model.
- Fonts.JoinPath: joins with `/` on every platform. Windows' `\` separator and `PathBuf` normalisation are not modelled.
- Linux path conversion is not modelled: a subdirectory whose path is not valid UTF-8 is skipped by `path.to_str()`. `is_dir` following symbolic links is not modelled either: the entry tree is finite, so a symbolic link that leads back up the tree, which makes `scan_subdirectories` recurse without end, cannot be expressed.
- The Windows LCID and the environment variables (`WINDIR`, `LOCALAPPDATA`, `HOME`) are inputs. Reading them is not modelled.
- `get_selected_text` (raw clipboard access), `components/Controls.tsx` (clipboard polling, always-on-top), and the rendering-only components `FontGrid`, `FontPreview` and `LanguageSwitcher`.
- `scripts/package-release.js`: shell commands, archiving and hashing by external tools.

=== FILE: font_page.dfy ===
/** The home page's font list: the `filteredFonts` predicate and the `loadFonts` state changes. */
module FontPage {
  import opened Wrappers
  import Text
  import opened Fonts

  /** The `filteredFonts` predicate: system fonts go when they are hidden; a search keeps names containing it, ignoring case. */
  predicate Keep(f: FontInfo, hideSystemFonts: bool, search: string) {
    if hideSystemFonts && f.isSystem then false
    else if search != "" then Text.Contains(Text.Lower(f.name), Text.Lower(search))
    else true
  }

  /** `a` is `b` with some elements dropped, order kept. */
  predicate IsSubsequence(a: seq<FontInfo>, b: seq<FontInfo>)
    decreases |b|
  {
    |a| == 0 || (|b| > 0 && ((a[0] == b[0] && IsSubsequence(a[1..], b[1..])) || IsSubsequence(a, b[1..])))
  }

  /** `fonts.filter(...)`: the fonts kept by the predicate, in their original order, each as often as it occurs. */
  function FilterFonts(fonts: seq<FontInfo>, hideSystemFonts: bool, search: string): (r: seq<FontInfo>)
    ensures IsSubsequence(r, fonts)
    ensures forall f :: f in r ==> Keep(f, hideSystemFonts, search)
    ensures forall f :: multiset(r)[f] == (if Keep(f, hideSystemFonts, search) then multiset(fonts)[f] else 0)
  {
    if |fonts| == 0 then []
    else
      var rest := FilterFonts(fonts[1..], hideSystemFonts, search);
      assert fonts == [fonts[0]] + fonts[1..];
      if Keep(fonts[0], hideSystemFonts, search) then [fonts[0]] + rest else rest
  }

  /** A font is hidden by the system filter exactly when hiding is on and it is a system font. */
  lemma SystemFilterExcludes(f: FontInfo, search: string)
    ensures !Keep(f, true, search) <== f.isSystem
    ensures Keep(f, false, search) == Keep(f.(isSystem := false), true, search)
  {
  }

  /** With a search, a visible font is kept exactly when the search occurs in its name at some position, ignoring case. */
  lemma SearchMatchesSubstring(f: FontInfo, hideSystemFonts: bool, search: string)
    requires search != "" && !(hideSystemFonts && f.isSystem)
    ensures Keep(f, hideSystemFonts, search) <==>
              exists i :: Text.OccursAt(Text.Lower(f.name), Text.Lower(search), i)
  {
    assert Keep(f, hideSystemFonts, search) == Text.Contains(Text.Lower(f.name), Text.Lower(search));
    Text.ContainsIff(Text.Lower(f.name), Text.Lower(search));
  }

  /** Without hiding and without a search the list is shown whole. */
  lemma {:induction false} NoFilterKeepsAll(fonts: seq<FontInfo>)
    ensures FilterFonts(fonts, false, "") == fonts
  {
    if |fonts| > 0 {
      NoFilterKeepsAll(fonts[1..]);
      assert fonts == [fonts[0]] + fonts[1..];
    }
  }

  /** With an empty search, exactly the fonts the system filter lets through are kept. */
  lemma {:induction false} EmptySearchKeepsUnhidden(fonts: seq<FontInfo>, hideSystemFonts: bool, f: FontInfo)
    ensures f in FilterFonts(fonts, hideSystemFonts, "") <==> f in fonts && !(hideSystemFonts && f.isSystem)
  {
    var r := FilterFonts(fonts, hideSystemFonts, "");
    assert f in r <==> multiset(r)[f] > 0;
    assert f in fonts <==> multiset(fonts)[f] > 0;
  }

  /** Filtering an already filtered list by the same settings changes nothing. */
  lemma {:induction false} FilterIdempotent(fonts: seq<FontInfo>, hideSystemFonts: bool, search: string)
    ensures FilterFonts(FilterFonts(fonts, hideSystemFonts, search), hideSystemFonts, search) == FilterFonts(fonts, hideSystemFonts, search)
  {
    if |fonts| > 0 {
      FilterIdempotent(fonts[1..], hideSystemFonts, search);
      var rest := FilterFonts(fonts[1..], hideSystemFonts, search);
      if Keep(fonts[0], hideSystemFonts, search) {
        var r := [fonts[0]] + rest;
        assert r[1..] == rest;
      }
    }
  }

  /** What `invoke` threw: an `Error` object with its message, or any other value. */
  datatype Thrown = ErrorObject(message: string) | OtherValue

  /** How the `get_system_fonts` call ended. */
  datatype Invocation = Returned(fonts: seq<FontInfo>) | Rejected(thrown: Thrown)

  /** The page's loading state. */
  datatype PageState = PageState(fonts: seq<FontInfo>, isLoading: bool, error: Option<string>)

  const LOAD_FAILED_MESSAGE: string := "Failed to load fonts"

  /**
   * `loadFonts`: loading ends whatever happens; success replaces the list,
   * failure keeps it and records the error message (a fixed one for values that
   * are not `Error`s). A success does not clear an earlier error.
   */
  function LoadFonts(p: PageState, outcome: Invocation): (r: PageState)
    ensures !r.isLoading
    ensures outcome.Returned? ==> r.fonts == outcome.fonts && r.error == p.error
    ensures outcome.Rejected? ==> r.fonts == p.fonts && r.error.Some?
    ensures outcome == Rejected(OtherValue) ==> r.error == Some(LOAD_FAILED_MESSAGE)
    ensures outcome.Rejected? && outcome.thrown.ErrorObject? ==> r.error == Some(outcome.thrown.message)
  {
    match outcome
    case Returned(list) => PageState(list, false, p.error)
    case Rejected(ErrorObject(m)) => PageState(p.fonts, false, Some(m))
    case Rejected(OtherValue) => PageState(p.fonts, false, Some(LOAD_FAILED_MESSAGE))
  }

  /** The page's first state: no fonts, loading, no error. */
  const INITIAL_PAGE: PageState := PageState([], true, None)

  /** From the first state, the error is set exactly when the load failed. */
  lemma FirstLoadErrorOnlyOnFailure(outcome: Invocation)
    ensures LoadFonts(INITIAL_PAGE, outcome).error.Some? <==> outcome.Rejected?
  {
  }
}

=== FILE: font_scan.dfy ===
/**
 * `get_system_fonts` on each platform: which directories are read, how their
 * entries become fonts, how the system flag is set, and the final sort.
 * Directory contents are inputs: a listing per root directory (a root that is
 * missing or unreadable has none) and, below it, a tree of entries.
 */
module FontScan {
  import opened Wrappers
  import Text
  import opened Fonts
  import FontSort

  /** A directory entry: a file, a readable directory with its entries, or a directory that cannot be read. */
  datatype Entry = File(name: string) | Dir(name: string, children: seq<Entry>) | LockedDir(name: string)

  /** The root directories the host could list, with their entries. */
  type Listings = map<string, seq<Entry>>

  /** The fonts among a directory's entries, one per entry, in listing order (directories are offered too, by name). */
  function ScanFlat(dir: string, entries: seq<Entry>, isSystem: bool): (r: seq<FontInfo>)
    ensures |r| <= |entries|
    ensures forall f :: f in r ==> f.isSystem == isSystem
  {
    if |entries| == 0 then []
    else
      var head := match ProcessFontEntry(dir, entries[0].name, isSystem)
        case Some(font) => [font]
        case None => [];
      head + ScanFlat(dir, entries[1..], isSystem)
  }

  /** Linux `scan_subdirectories`: directories are descended into, every other entry is offered as a font. */
  function ScanTree(dir: string, entries: seq<Entry>, isSystem: bool): (r: seq<FontInfo>)
    ensures forall f :: f in r ==> f.isSystem == isSystem
    decreases entries
  {
    if |entries| == 0 then []
    else ScanEntry(dir, entries[0], isSystem) + ScanTree(dir, entries[1..], isSystem)
  }

  function ScanEntry(dir: string, e: Entry, isSystem: bool): (r: seq<FontInfo>)
    ensures forall f :: f in r ==> f.isSystem == isSystem
    decreases e
  {
    match e
    case Dir(name, children) => ScanTree(JoinPath(dir, name), children, isSystem)
    case LockedDir(_) => []
    case File(name) =>
      match ProcessFontEntry(dir, name, isSystem)
      case Some(font) => [font]
      case None => []
  }

  /**
   * An independent description of what the recursive scan finds: a font from a
   * file somewhere below `dir`, reached through readable directories.
   */
  ghost predicate FontFileBelow(dir: string, entries: seq<Entry>, isSystem: bool, f: FontInfo)
    decreases entries
  {
    exists k :: 0 <= k < |entries| &&
      match entries[k]
      case File(name) => ProcessFontEntry(dir, name, isSystem) == Some(f)
      case Dir(name, children) => FontFileBelow(JoinPath(dir, name), children, isSystem, f)
      case LockedDir(_) => false
  }

  /** The recursive scan finds exactly the font files below the directory, at any depth. */
  lemma {:induction false} ScanTreeFindsExactly(dir: string, entries: seq<Entry>, isSystem: bool, f: FontInfo)
    ensures f in ScanTree(dir, entries, isSystem) <==> FontFileBelow(dir, entries, isSystem, f)
    decreases entries
  {
    if |entries| == 0 {
    } else {
      var e := entries[0];
      ScanTreeFindsExactly(dir, entries[1..], isSystem, f);
      if e.Dir? {
        ScanTreeFindsExactly(JoinPath(dir, e.name), e.children, isSystem, f);
      }
      if FontFileBelow(dir, entries[1..], isSystem, f) {
        var k :| 0 <= k < |entries[1..]| &&
          match entries[1..][k]
          case File(name) => ProcessFontEntry(dir, name, isSystem) == Some(f)
          case Dir(name, children) => FontFileBelow(JoinPath(dir, name), children, isSystem, f)
          case LockedDir(_) => false;
        assert entries[k + 1] == entries[1..][k];
      }
      if FontFileBelow(dir, entries, isSystem, f) {
        var k :| 0 <= k < |entries| &&
          match entries[k]
          case File(name) => ProcessFontEntry(dir, name, isSystem) == Some(f)
          case Dir(name, children) => FontFileBelow(JoinPath(dir, name), children, isSystem, f)
          case LockedDir(_) => false;
        if k > 0 {
          assert entries[1..][k - 1] == entries[k];
        }
      }
    }
  }

  /** The flat loop yields exactly the fonts its entries yield, no others. */
  lemma {:induction false} ScanFlatFindsExactly(dir: string, entries: seq<Entry>, isSystem: bool, f: FontInfo)
    ensures f in ScanFlat(dir, entries, isSystem) <==>
              exists k :: 0 <= k < |entries| && ProcessFontEntry(dir, entries[k].name, isSystem) == Some(f)
    decreases entries
  {
    if |entries| > 0 {
      ScanFlatFindsExactly(dir, entries[1..], isSystem, f);
      if exists k :: 0 <= k < |entries[1..]| && ProcessFontEntry(dir, entries[1..][k].name, isSystem) == Some(f) {
        var k :| 0 <= k < |entries[1..]| && ProcessFontEntry(dir, entries[1..][k].name, isSystem) == Some(f);
        assert entries[k + 1] == entries[1..][k];
      }
      if exists k :: 0 <= k < |entries| && ProcessFontEntry(dir, entries[k].name, isSystem) == Some(f) {
        var k :| 0 <= k < |entries| && ProcessFontEntry(dir, entries[k].name, isSystem) == Some(f);
        if k > 0 {
          assert entries[1..][k - 1] == entries[k];
        }
      }
    }
  }

  /** The fonts one root contributes on Windows and macOS: its entries, without descending. */
  function FlatRoot(dir: string, listings: Listings, isSystem: bool): (r: seq<FontInfo>)
    ensures dir !in listings ==> r == []
    ensures forall f :: f in r ==> f.isSystem == isSystem
  {
    if dir in listings then ScanFlat(dir, listings[dir], isSystem) else []
  }

  /** The fonts one root contributes on Linux: its entries, then everything `scan_subdirectories` finds from it. */
  function LinuxRoot(dir: string, listings: Listings, isSystem: bool): (r: seq<FontInfo>)
    ensures dir !in listings ==> r == []
    ensures forall f :: f in r ==> f.isSystem == isSystem
  {
    if dir in listings then ScanFlat(dir, listings[dir], isSystem) + ScanTree(dir, listings[dir], isSystem) else []
  }

  // ---------------------------------------------------------------- Windows

  /**
   * Windows: the fonts under `%WINDIR%\Fonts` are system fonts, those under the
   * user's local font directory are not; an unset variable or an unreadable
   * directory contributes nothing. The command always succeeds.
   */
  function WindowsFonts(windir: Option<string>, localAppData: Option<string>, listings: Listings): (r: Result<seq<FontInfo>>)
    ensures r.Ok?
    ensures FontSort.SortedByKey(r.value)
    ensures multiset(r.value) ==
              multiset(if windir.Some? then FlatRoot(JoinPath(windir.value, "Fonts"), listings, true) else [])
              + multiset(if localAppData.Some? then FlatRoot(JoinPath(localAppData.value, "Microsoft\\Windows\\Fonts"), listings, false) else [])
  {
    var system := if windir.Some? then FlatRoot(JoinPath(windir.value, "Fonts"), listings, true) else [];
    var user := if localAppData.Some? then FlatRoot(JoinPath(localAppData.value, "Microsoft\\Windows\\Fonts"), listings, false) else [];
    Ok(FontSort.SortFonts(system + user))
  }

  // ---------------------------------------------------------------- macOS and Linux

  /**
   * The macOS font directories, the last one under `$HOME`. An unset `$HOME`
   * becomes the empty text, so the last root is then `/Library/Fonts` again.
   */
  function MacFontDirs(home: Option<string>): (r: seq<string>)
    ensures |r| == 3 && r[0] == "/System/Library/Fonts" && r[1] == "/Library/Fonts"
    ensures home.Some? ==> r[2] == home.value + "/Library/Fonts"
    ensures home.None? ==> r[2] == r[1]
  {
    ["/System/Library/Fonts", "/Library/Fonts", home.GetOr("") + "/Library/Fonts"]
  }

  /**
   * The Linux font directories, the third one under `$HOME`. An unset `$HOME`
   * becomes the empty text, so that root is then `/.local/share/fonts`.
   */
  function LinuxFontDirs(home: Option<string>): (r: seq<string>)
    ensures |r| == 4 && r[0] == "/usr/share/fonts" && r[1] == "/usr/local/share/fonts" && r[3] == "/System/Fonts"
    ensures home.Some? ==> r[2] == home.value + "/.local/share/fonts"
    ensures home.None? ==> r[2] == "/.local/share/fonts"
  {
    ["/usr/share/fonts", "/usr/local/share/fonts", home.GetOr("") + "/.local/share/fonts", "/System/Fonts"]
  }

  /** macOS flags a root as system exactly when it starts with `/System`. */
  predicate MacIsSystem(dir: string) {
    Text.StartsWith(dir, "/System")
  }

  /** Linux flags a root as system exactly when it starts with `/usr` or `/System`. */
  predicate LinuxIsSystem(dir: string) {
    Text.StartsWith(dir, "/usr") || Text.StartsWith(dir, "/System")
  }

  function MacCollect(dirs: seq<string>, listings: Listings): (r: seq<FontInfo>)
    ensures forall f :: f in r ==> exists k :: 0 <= k < |dirs| && f in FlatRoot(dirs[k], listings, MacIsSystem(dirs[k]))
  {
    if |dirs| == 0 then []
    else
      var rest := MacCollect(dirs[1..], listings);
      assert forall f :: f in rest ==> exists k :: 0 <= k < |dirs| && f in FlatRoot(dirs[k], listings, MacIsSystem(dirs[k])) by {
        forall f | f in rest ensures exists k :: 0 <= k < |dirs| && f in FlatRoot(dirs[k], listings, MacIsSystem(dirs[k])) {
          var k :| 0 <= k < |dirs[1..]| && f in FlatRoot(dirs[1..][k], listings, MacIsSystem(dirs[1..][k]));
          assert dirs[1..][k] == dirs[k + 1];
        }
      }
      FlatRoot(dirs[0], listings, MacIsSystem(dirs[0])) + rest
  }

  function LinuxCollect(dirs: seq<string>, listings: Listings): (r: seq<FontInfo>)
    ensures forall f :: f in r ==> exists k :: 0 <= k < |dirs| && f in LinuxRoot(dirs[k], listings, LinuxIsSystem(dirs[k]))
  {
    if |dirs| == 0 then []
    else
      var rest := LinuxCollect(dirs[1..], listings);
      assert forall f :: f in rest ==> exists k :: 0 <= k < |dirs| && f in LinuxRoot(dirs[k], listings, LinuxIsSystem(dirs[k])) by {
        forall f | f in rest ensures exists k :: 0 <= k < |dirs| && f in LinuxRoot(dirs[k], listings, LinuxIsSystem(dirs[k])) {
          var k :| 0 <= k < |dirs[1..]| && f in LinuxRoot(dirs[1..][k], listings, LinuxIsSystem(dirs[1..][k]));
          assert dirs[1..][k] == dirs[k + 1];
        }
      }
      LinuxRoot(dirs[0], listings, LinuxIsSystem(dirs[0])) + rest
  }

  /** macOS: every font comes from one of the three roots, flagged by that root; sorted; always `Ok`. */
  function MacFonts(home: Option<string>, listings: Listings): (r: Result<seq<FontInfo>>)
    ensures r.Ok? && FontSort.SortedByKey(r.value)
    ensures multiset(r.value) == multiset(MacCollect(MacFontDirs(home), listings))
  {
    Ok(FontSort.SortFonts(MacCollect(MacFontDirs(home), listings)))
  }

  /** Linux: every font comes from one of the four roots, flagged by that root; sorted; always `Ok`. */
  function LinuxFonts(home: Option<string>, listings: Listings): (r: Result<seq<FontInfo>>)
    ensures r.Ok? && FontSort.SortedByKey(r.value)
    ensures multiset(r.value) == multiset(LinuxCollect(LinuxFontDirs(home), listings))
  {
    Ok(FontSort.SortFonts(LinuxCollect(LinuxFontDirs(home), listings)))
  }

  /** A font file directly in a Linux root is offered twice: by the root's own loop and again by the recursive scan. */
  lemma {:induction false} LinuxRootDuplicatesTopLevel(dir: string, listings: Listings, isSystem: bool, k: nat)
    requires dir in listings && k < |listings[dir]| && listings[dir][k].File?
    requires ProcessFontEntry(dir, listings[dir][k].name, isSystem).Some?
    ensures var f := ProcessFontEntry(dir, listings[dir][k].name, isSystem).value;
      multiset(LinuxRoot(dir, listings, isSystem))[f] >= 2
  {
    var entries := listings[dir];
    var f := ProcessFontEntry(dir, entries[k].name, isSystem).value;
    FlatFinds(dir, entries, isSystem, k);
    ScanTreeFindsExactly(dir, entries, isSystem, f);
    assert FontFileBelow(dir, entries, isSystem, f);
  }

  /** The flat loop finds every font among the entries it is given. */
  lemma {:induction false} FlatFinds(dir: string, entries: seq<Entry>, isSystem: bool, k: nat)
    requires k < |entries| && ProcessFontEntry(dir, entries[k].name, isSystem).Some?
    ensures ProcessFontEntry(dir, entries[k].name, isSystem).value in ScanFlat(dir, entries, isSystem)
    decreases k
  {
    if k > 0 {
      FlatFinds(dir, entries[1..], isSystem, k - 1);
      assert entries[1..][k - 1] == entries[k];
    }
  }

  /**
   * The Linux command's result holds every such top-level font at least twice,
   * for instance a font file directly in `/usr/share/fonts`.
   */
  lemma LinuxFontsDuplicatesTopLevel(home: Option<string>, listings: Listings, k: nat)
    requires "/usr/share/fonts" in listings && k < |listings["/usr/share/fonts"]|
    requires listings["/usr/share/fonts"][k].File?
    requires ProcessFontEntry("/usr/share/fonts", listings["/usr/share/fonts"][k].name, true).Some?
    ensures var f := ProcessFontEntry("/usr/share/fonts", listings["/usr/share/fonts"][k].name, true).value;
      multiset(LinuxFonts(home, listings).value)[f] >= 2
  {
    var dir := "/usr/share/fonts";
    assert LinuxIsSystem(dir) by { assert dir[..4] == "/usr"; }
    LinuxRootDuplicatesTopLevel(dir, listings, true, k);
    var dirs := LinuxFontDirs(home);
    assert dirs[0] == dir;
    assert LinuxCollect(dirs, listings) == LinuxRoot(dir, listings, true) + LinuxCollect(dirs[1..], listings);
  }

  /** On Windows a font is flagged system exactly when it came from the Windows font directory. */
  lemma WindowsSystemFlag(windir: Option<string>, localAppData: Option<string>, listings: Listings, f: FontInfo)
    requires f in WindowsFonts(windir, localAppData, listings).value
    ensures f.isSystem ==> windir.Some? && f in FlatRoot(JoinPath(windir.value, "Fonts"), listings, true)
    ensures !f.isSystem ==> localAppData.Some? && f in FlatRoot(JoinPath(localAppData.value, "Microsoft\\Windows\\Fonts"), listings, false)
  {
    assert f in multiset(WindowsFonts(windir, localAppData, listings).value);
  }

  /** The macOS roots: the one under `/System` is a system root, `/Library/Fonts` is not, and neither is the home one when `$HOME` is unset. */
  lemma MacRootFlags(home: Option<string>)
    ensures MacIsSystem(MacFontDirs(home)[0])
    ensures !MacIsSystem(MacFontDirs(home)[1])
    ensures home.None? ==> !MacIsSystem(MacFontDirs(home)[2])
  {
    assert "/System/Library/Fonts"[..7] == "/System";
    assert "/Library/Fonts"[..7] != "/System" by { assert "/Library/Fonts"[1] != "/System"[1]; }
    if home.None? {
      var d := MacFontDirs(home)[2];
      assert d == "/Library/Fonts";
      assert d[1] != "/System"[1];
    }
  }

  /** Every font macOS reports carries the flag of the root it was found under. */
  lemma MacSystemFlag(home: Option<string>, listings: Listings, f: FontInfo)
    requires f in MacFonts(home, listings).value
    ensures exists k :: 0 <= k < |MacFontDirs(home)|
              && f in FlatRoot(MacFontDirs(home)[k], listings, MacIsSystem(MacFontDirs(home)[k]))
              && f.isSystem == MacIsSystem(MacFontDirs(home)[k])
  {
    var dirs := MacFontDirs(home);
    assert f in multiset(MacFonts(home, listings).value);
    assert f in multiset(MacCollect(dirs, listings));
    assert f in MacCollect(dirs, listings);
    var k :| 0 <= k < |dirs| && f in FlatRoot(dirs[k], listings, MacIsSystem(dirs[k]));
  }

  /** Every font Linux reports carries the flag of the root it was found under. */
  lemma LinuxSystemFlag(home: Option<string>, listings: Listings, f: FontInfo)
    requires f in LinuxFonts(home, listings).value
    ensures exists k :: 0 <= k < |LinuxFontDirs(home)|
              && f in LinuxRoot(LinuxFontDirs(home)[k], listings, LinuxIsSystem(LinuxFontDirs(home)[k]))
              && f.isSystem == LinuxIsSystem(LinuxFontDirs(home)[k])
  {
    var dirs := LinuxFontDirs(home);
    assert f in multiset(LinuxFonts(home, listings).value);
    assert f in multiset(LinuxCollect(dirs, listings));
    assert f in LinuxCollect(dirs, listings);
    var k :| 0 <= k < |dirs| && f in LinuxRoot(dirs[k], listings, LinuxIsSystem(dirs[k]));
  }

  /** Every font a macOS root yields is collected. */
  lemma {:induction false} MacCollectComplete(dirs: seq<string>, listings: Listings, k: nat, f: FontInfo)
    requires k < |dirs| && f in FlatRoot(dirs[k], listings, MacIsSystem(dirs[k]))
    ensures f in MacCollect(dirs, listings)
    decreases k
  {
    var first := FlatRoot(dirs[0], listings, MacIsSystem(dirs[0]));
    var rest := MacCollect(dirs[1..], listings);
    assert MacCollect(dirs, listings) == first + rest;
    if k > 0 {
      assert dirs[1..][k - 1] == dirs[k];
      MacCollectComplete(dirs[1..], listings, k - 1, f);
      assert f in rest;
    } else {
      assert f in first;
    }
  }

  /** Every font a Linux root yields, at its top or below it, is collected. */
  lemma {:induction false} LinuxCollectComplete(dirs: seq<string>, listings: Listings, k: nat, f: FontInfo)
    requires k < |dirs| && f in LinuxRoot(dirs[k], listings, LinuxIsSystem(dirs[k]))
    ensures f in LinuxCollect(dirs, listings)
    decreases k
  {
    var rest := LinuxCollect(dirs[1..], listings);
    assert LinuxCollect(dirs, listings) == LinuxRoot(dirs[0], listings, LinuxIsSystem(dirs[0])) + rest;
    if k > 0 {
      assert dirs[1..][k - 1] == dirs[k];
      LinuxCollectComplete(dirs[1..], listings, k - 1, f);
    }
  }

  /** The macOS command reports every font file lying directly in one of its readable roots. */
  lemma MacFontsComplete(home: Option<string>, listings: Listings, k: nat, f: FontInfo)
    requires k < |MacFontDirs(home)|
    requires f in FlatRoot(MacFontDirs(home)[k], listings, MacIsSystem(MacFontDirs(home)[k]))
    ensures f in MacFonts(home, listings).value
  {
    var dirs := MacFontDirs(home);
    MacCollectComplete(dirs, listings, k, f);
    assert f in multiset(MacCollect(dirs, listings));
    assert f in multiset(MacFonts(home, listings).value);
  }

  /**
   * The Linux command reports every font file below one of its readable roots,
   * at any depth reached through readable directories.
   */
  lemma LinuxFontsFindsBelow(home: Option<string>, listings: Listings, k: nat, f: FontInfo)
    requires k < |LinuxFontDirs(home)| && LinuxFontDirs(home)[k] in listings
    requires FontFileBelow(LinuxFontDirs(home)[k], listings[LinuxFontDirs(home)[k]], LinuxIsSystem(LinuxFontDirs(home)[k]), f)
    ensures f in LinuxFonts(home, listings).value
  {
    var dirs := LinuxFontDirs(home);
    var dir := dirs[k];
    ScanTreeFindsExactly(dir, listings[dir], LinuxIsSystem(dir), f);
    assert f in LinuxRoot(dir, listings, LinuxIsSystem(dir));
    LinuxCollectComplete(dirs, listings, k, f);
    assert f in multiset(LinuxCollect(dirs, listings));
    assert f in multiset(LinuxFonts(home, listings).value);
  }

  /** The Linux roots under `/usr` and `/System` are system roots; the home one is not when `$HOME` is unset. */
  lemma LinuxRootFlags(home: Option<string>)
    ensures LinuxIsSystem(LinuxFontDirs(home)[0]) && LinuxIsSystem(LinuxFontDirs(home)[1]) && LinuxIsSystem(LinuxFontDirs(home)[3])
    ensures home.None? ==> !LinuxIsSystem(LinuxFontDirs(home)[2])
  {
    assert "/usr/share/fonts"[..4] == "/usr";
    assert "/usr/local/share/fonts"[..4] == "/usr";
    assert "/System/Fonts"[..7] == "/System";
    if home.None? {
      var d := LinuxFontDirs(home)[2];
      assert d == "/.local/share/fonts";
      assert d[1] != "/usr"[1] && d[1] != "/System"[1];
    }
  }

  lemma {:induction false} NothingListed(dirs: seq<string>)
    ensures MacCollect(dirs, map[]) == [] && LinuxCollect(dirs, map[]) == []
  {
    if |dirs| > 0 {
      NothingListed(dirs[1..]);
    }
  }

  /** When no font directory can be read, every platform still answers `Ok`, with no fonts. */
  lemma NoReadableDirectories(windir: Option<string>, localAppData: Option<string>, home: Option<string>)
    ensures WindowsFonts(windir, localAppData, map[]) == Ok([])
    ensures MacFonts(home, map[]) == Ok([])
    ensures LinuxFonts(home, map[]) == Ok([])
  {
    NothingListed(MacFontDirs(home));
    NothingListed(LinuxFontDirs(home));
    assert FontSort.SortFonts([]) == [];
  }
}

=== FILE: font_sort.dfy ===
/** The case-insensitive ordering `get_system_fonts` applies before returning. */
module FontSort {
  import Text
  import opened Fonts

  /** The sort key: the lower-cased name. */
  function Key(f: FontInfo): string {
    Text.Lower(f.name)
  }

  /** `a` may precede `b`: its lower-cased name is not greater. */
  predicate KeyLeq(a: FontInfo, b: FontInfo) {
    Text.LexLeq(Key(a), Key(b))
  }

  predicate SortedByKey(s: seq<FontInfo>) {
    forall i, j :: 0 <= i < j < |s| ==> KeyLeq(s[i], s[j])
  }

  /** An element that may precede everything in a sorted list can be put in front of it. */
  lemma PrependSorted(y: FontInfo, s: seq<FontInfo>)
    requires SortedByKey(s)
    requires forall z :: z in multiset(s) ==> KeyLeq(y, z)
    ensures SortedByKey([y] + s)
  {
    forall i, j | 0 <= i < j < |[y] + s| ensures KeyLeq(([y] + s)[i], ([y] + s)[j]) {
      if i == 0 {
        assert s[j - 1] in multiset(s);
      }
    }
  }

  /** Place `x` before the first element it may precede. */
  function Insert(x: FontInfo, s: seq<FontInfo>): (r: seq<FontInfo>)
    requires SortedByKey(s)
    ensures SortedByKey(r)
    ensures multiset(r) == multiset(s) + multiset{x}
  {
    if |s| == 0 then [x]
    else if KeyLeq(x, s[0]) then
      InsertInFront(x, s);
      [x] + s
    else
      var rest := Insert(x, s[1..]);
      InsertBehind(x, s, rest);
      [s[0]] + rest
  }

  lemma InsertInFront(x: FontInfo, s: seq<FontInfo>)
    requires SortedByKey(s) && |s| > 0 && KeyLeq(x, s[0])
    ensures SortedByKey([x] + s)
  {
    forall z | z in multiset(s) ensures KeyLeq(x, z) {
      var j :| 0 <= j < |s| && s[j] == z;
      if j > 0 {
        Text.LexLeqTrans(Key(x), Key(s[0]), Key(s[j]));
      }
    }
    PrependSorted(x, s);
  }

  lemma InsertBehind(x: FontInfo, s: seq<FontInfo>, rest: seq<FontInfo>)
    requires SortedByKey(s) && |s| > 0 && !KeyLeq(x, s[0])
    requires SortedByKey(rest) && multiset(rest) == multiset(s[1..]) + multiset{x}
    ensures SortedByKey([s[0]] + rest)
    ensures multiset([s[0]] + rest) == multiset(s) + multiset{x}
  {
    Text.LexLeqTotal(Key(x), Key(s[0]));
    assert s == [s[0]] + s[1..];
    forall z | z in multiset(rest) ensures KeyLeq(s[0], z) {
      if z != x {
        assert z in multiset(s[1..]);
        var j :| 0 <= j < |s[1..]| && s[1..][j] == z;
        assert s[j + 1] == z;
      }
    }
    PrependSorted(s[0], rest);
  }

  /**
   * `fonts.sort_by(|a, b| a.name.to_lowercase().cmp(&b.name.to_lowercase()))`:
   * a permutation of the input, non-decreasing by lower-cased name.
   */
  function SortFonts(s: seq<FontInfo>): (r: seq<FontInfo>)
    ensures SortedByKey(r)
    ensures multiset(r) == multiset(s)
    ensures |r| == |s|
  {
    if |s| == 0 then []
    else
      assert s == [s[0]] + s[1..];
      Insert(s[0], SortFonts(s[1..]))
  }
}

=== FILE: fonts.dfy ===
/**
 * Font files: the file-name split Rust's `Path::extension` and
 * `Path::file_stem` perform, the `FontInfo` record, and `process_font_entry`.
 */
module Fonts {
  import opened Wrappers
  import Text

  /** Whether a directory entry's name is a file name at all (`..` and `.` are not). */
  predicate HasFileName(name: string) {
    name != "" && name != "." && name != ".."
  }

  /** The text after the last `.`; none without a dot, and none when the only dot leads the name. */
  function Extension(name: string): (r: Option<string>)
    ensures r.Some? ==> HasFileName(name) && '.' !in r.value
  {
    if !HasFileName(name) then None
    else match Text.LastIndexOf(name, '.')
      case None => None
      case Some(i) => if i == 0 then None else Some(name[i + 1..])
  }

  /** The text before the last `.`, or the whole name when it has no extension. */
  function Stem(name: string): (r: Option<string>)
    ensures r.Some? <==> HasFileName(name)
    ensures r.Some? ==> r.value != ""
  {
    if !HasFileName(name) then None
    else match Text.LastIndexOf(name, '.')
      case None => Some(name)
      case Some(i) => if i == 0 then Some(name) else Some(name[..i])
  }

  /** Stem and extension split the name at its last dot; without an extension the stem is the whole name. */
  lemma StemExtensionSplit(name: string)
    requires HasFileName(name)
    ensures Extension(name).Some? ==> Stem(name).value + "." + Extension(name).value == name
    ensures Extension(name).None? ==> Stem(name) == Some(name)
    ensures Extension(name).None? ==> '.' !in name || (name[0] == '.' && '.' !in name[1..])
  {
    match Text.LastIndexOf(name, '.')
    case None =>
    case Some(i) =>
      if i > 0 {
        assert name[..i] + "." + name[i + 1..] == name;
      } else {
        assert forall j :: 0 <= j < |name[1..]| ==> name[1..][j] == name[j + 1];
      }
  }

  /** One font as the native side reports it. */
  datatype FontInfo = FontInfo(name: string, path: string, isSystem: bool)

  /** `PathBuf::join` of a directory and an entry name. */
  function JoinPath(dir: string, name: string): string {
    dir + "/" + name
  }

  /** `.ttf` or `.otf`, in any letter case. */
  predicate IsFontExtension(ext: string) {
    Text.Lower(ext) == "ttf" || Text.Lower(ext) == "otf"
  }

  /**
   * `process_font_entry`: a font exactly when the extension is `ttf` or `otf`
   * ignoring case and a stem exists; it is named by the stem, located by the
   * full path and flagged as the caller says.
   */
  function ProcessFontEntry(dir: string, name: string, isSystem: bool): (r: Option<FontInfo>)
    ensures r.Some? <==> Extension(name).Some? && IsFontExtension(Extension(name).value) && Stem(name).Some?
    ensures r.Some? ==> r.value == FontInfo(Stem(name).value, JoinPath(dir, name), isSystem)
  {
    match Extension(name)
    case None => None
    case Some(ext) =>
      if IsFontExtension(ext) then
        match Stem(name)
        case None => None
        case Some(stem) => Some(FontInfo(stem, JoinPath(dir, name), isSystem))
      else None
  }

  /** Upper-case extensions are accepted: `FOO.TTF` is the font `FOO`. */
  lemma UpperCaseExtensionAccepted(dir: string, isSystem: bool)
    ensures ProcessFontEntry(dir, "FOO.TTF", isSystem) == Some(FontInfo("FOO", JoinPath(dir, "FOO.TTF"), isSystem))
  {
    var n := "FOO.TTF";
    assert n[3] == '.' && n[4] != '.' && n[5] != '.' && n[6] != '.';
    assert Text.LastIndexOf(n, '.') == Some(3);
    assert "FOO.TTF"[4..] == "TTF";
    assert "FOO.TTF"[..3] == "FOO";
    assert Text.Lower("TTF") == "ttf";
  }

  /** A hidden file with no further dot (`.ttf`) has no extension and is not a font. */
  lemma LoneLeadingDotIsNoExtension(dir: string, isSystem: bool)
    ensures Extension(".ttf").None?
    ensures ProcessFontEntry(dir, ".ttf", isSystem).None?
  {
    var n := ".ttf";
    assert n[0] == '.' && n[1] != '.' && n[2] != '.' && n[3] != '.';
    assert Text.LastIndexOf(n, '.') == Some(0);
  }
}

=== FILE: i18n.dfy ===
/**
 * Language preference: the normalised system language, the language file in
 * the settings directory, the initial choice, and `changeLanguage`. Only the
 * chosen language is modelled, not the translation machinery.
 */
module I18n {
  import opened Wrappers
  import Text
  import Storage
  import NativeLanguage

  const SETTINGS_DIR: string := "settings"
  const LANGUAGE_FILE: string := "settings/language.txt"
  const FALLBACK_LANGUAGE: string := "en"

  /** The two languages the switcher offers. */
  datatype Language = En | Ru

  function Code(l: Language): string {
    match l
    case En => "en"
    case Ru => "ru"
  }

  /** Language codes carry no surrounding white space. */
  lemma CodeSurvivesTrim(l: Language)
    ensures Text.IsTrimmed(Code(l)) && Code(l) != ""
  {
    var c := Code(l);
    assert !Text.IsWhitespace(c[0]) && !Text.IsWhitespace(c[|c| - 1]);
  }

  /** The language file sits in the settings directory, apart from every other preference file. */
  lemma LanguageFileInsideDir()
    ensures LANGUAGE_FILE == SETTINGS_DIR + "/language.txt"
    ensures Storage.ParentDir(LANGUAGE_FILE) == SETTINGS_DIR
  {
    var p := LANGUAGE_FILE;
    assert forall i :: 0 <= i < |p| ==> p[i] == (SETTINGS_DIR + "/language.txt")[i];
    assert p[8] == '/';
    assert forall j :: 8 < j < |p| ==> p[j] != '/';
    assert Text.LastIndexOf(p, '/') == Some(8);
    assert p[..8] == SETTINGS_DIR;
  }

  /** `ensureSettingsDirectory`: create the settings directory if absent; unlike the theme's version, failures are rethrown. */
  function EnsureSettingsDirectory(d: Storage.Disk, f: Storage.Faults): (r: Result<Storage.Disk>)
    ensures r.Ok? <==>
              SETTINGS_DIR !in f.existsFails
              && (SETTINGS_DIR in d.dirs || SETTINGS_DIR in d.files || SETTINGS_DIR !in f.mkdirFails)
    ensures r.Ok? ==> r.value.files == d.files
    ensures r.Ok? ==> r.value.dirs == d.dirs || (SETTINGS_DIR !in d.dirs && r.value.dirs == d.dirs + {SETTINGS_DIR})
    ensures SETTINGS_DIR in d.dirs && SETTINGS_DIR !in f.existsFails ==> r == Ok(d)
  {
    LanguageFileInsideDir();
    match Storage.PathExists(d, f, SETTINGS_DIR)
    case Err(e) => Err(e)
    case Ok(present) =>
      if present then Ok(d) else Storage.Mkdir(d, f, SETTINGS_DIR)
  }

  /** Applying it twice is applying it once. */
  lemma EnsureSettingsDirectoryIdempotent(d: Storage.Disk, f: Storage.Faults)
    requires EnsureSettingsDirectory(d, f).Ok?
    ensures EnsureSettingsDirectory(EnsureSettingsDirectory(d, f).value, f) == EnsureSettingsDirectory(d, f)
  {
  }

  /**
   * `getSystemLanguage`: Russian when the native answer, lower-cased, starts
   * with `ru`; English otherwise and when the native call throws.
   */
  function GetSystemLanguage(native: Result<string>): (r: string)
    ensures r == "ru" || r == "en"
    ensures r == "ru" <==> native.Ok? && Text.StartsWith(Text.Lower(native.value), "ru")
  {
    match native
    case Err(_) => "en"
    case Ok(lang) => if Text.StartsWith(Text.Lower(lang), "ru") then "ru" else "en"
  }

  /** The front end's normalisation passes every native answer through unchanged, so the system language is Russian exactly on a Russian Windows. */
  lemma SystemLanguageFromPlatform(p: NativeLanguage.Platform)
    ensures GetSystemLanguage(Ok(NativeLanguage.GetSystemLanguage(p))) == NativeLanguage.GetSystemLanguage(p)
    ensures GetSystemLanguage(Ok(NativeLanguage.GetSystemLanguage(p))) == "ru" <==> p.Windows? && p.lcid == NativeLanguage.RUSSIAN_LCID
  {
    var n := NativeLanguage.GetSystemLanguage(p);
    assert Text.Lower(n) == n;
    assert Text.StartsWith(n, "ru") <==> n == "ru";
  }

  /** `getStoredLanguage`: the trimmed language file, or nothing when it is missing or any call throws. */
  function GetStoredLanguage(d: Storage.Disk, f: Storage.Faults): (r: Option<string>)
    ensures r.Some? <==> LANGUAGE_FILE !in f.existsFails && LANGUAGE_FILE !in f.readFails && LANGUAGE_FILE in d.files
    ensures r.Some? ==> r.value == Text.Trim(d.files[LANGUAGE_FILE]) && Text.IsTrimmed(r.value)
  {
    match Storage.PathExists(d, f, LANGUAGE_FILE)
    case Err(_) => None
    case Ok(present) =>
      if !present then None
      else match Storage.ReadTextFile(d, f, LANGUAGE_FILE)
        case Err(_) => None
        case Ok(contents) => Some(Text.Trim(contents))
  }

  /** Whether the language save reaches the disk: the directory check must not throw, and the write must be allowed. */
  predicate LanguageSaveLands(d: Storage.Disk, f: Storage.Faults) {
    && SETTINGS_DIR !in f.existsFails
    && LANGUAGE_FILE !in f.writeFails
    && LANGUAGE_FILE !in d.dirs
    && (SETTINGS_DIR in d.dirs || (SETTINGS_DIR !in d.files && SETTINGS_DIR !in f.mkdirFails))
  }

  /** `saveLanguage`: never throws; skips the write when the directory step fails; touches only the language file. */
  function SaveLanguage(d: Storage.Disk, f: Storage.Faults, language: string): (r: Storage.Disk)
    ensures r.files == (if LanguageSaveLands(d, f) then d.files[LANGUAGE_FILE := language] else d.files)
    ensures r.files - {LANGUAGE_FILE} == d.files - {LANGUAGE_FILE}
    ensures d.dirs <= r.dirs <= d.dirs + {SETTINGS_DIR}
    ensures EnsureSettingsDirectory(d, f).Err? ==> r == d
  {
    LanguageFileInsideDir();
    match EnsureSettingsDirectory(d, f)
    case Err(_) => d
    case Ok(d1) =>
      match Storage.WriteTextFile(d1, f, LANGUAGE_FILE, language)
      case Ok(d2) => d2
      case Err(_) => d1
  }

  /** The initial language: a non-empty stored text, otherwise the system language. */
  function InitialLanguage(stored: Option<string>, system: string): (r: string)
    ensures stored.Some? && stored.value != "" ==> r == stored.value
    ensures stored.None? || stored.value == "" ==> r == system
  {
    if stored.Some? && stored.value != "" then stored.value else system
  }

  /** The language i18next is set to, and the fallback it is configured with. */
  datatype I18nState = I18nState(language: string, fallback: string)

  /**
   * `initializeI18n`: stored language if non-empty, else the system language;
   * when initialisation fails (`initOk` false), English. The fallback is English.
   */
  function InitializeI18n(d: Storage.Disk, f: Storage.Faults, native: Result<string>, initOk: bool): (r: I18nState)
    ensures r.fallback == FALLBACK_LANGUAGE
    ensures !initOk ==> r.language == "en"
    ensures initOk ==> r.language == InitialLanguage(GetStoredLanguage(d, f), GetSystemLanguage(native))
  {
    if initOk then I18nState(InitialLanguage(GetStoredLanguage(d, f), GetSystemLanguage(native)), FALLBACK_LANGUAGE)
    else I18nState("en", FALLBACK_LANGUAGE)
  }

  /** Without a usable language file the app starts in the system language, which is English or Russian. */
  lemma NoStoredLanguageUsesSystem(d: Storage.Disk, f: Storage.Faults, native: Result<string>)
    requires LANGUAGE_FILE !in d.files
    ensures InitializeI18n(d, f, native, true).language == GetSystemLanguage(native)
    ensures InitializeI18n(d, f, native, true).language in {"en", "ru"}
  {
  }

  /** `changeLanguage`: the active language switches first, then it is saved; a failed save does not switch it back. */
  function ChangeLanguage(s: I18nState, d: Storage.Disk, f: Storage.Faults, l: Language): (r: (I18nState, Storage.Disk))
    ensures r.0.language == Code(l) && r.0.fallback == s.fallback
    ensures r.1.files == (if LanguageSaveLands(d, f) then d.files[LANGUAGE_FILE := Code(l)] else d.files)
    ensures d.dirs <= r.1.dirs <= d.dirs + {SETTINGS_DIR}
    ensures EnsureSettingsDirectory(d, f).Err? ==> r.1 == d
  {
    (s.(language := Code(l)), SaveLanguage(d, f, Code(l)))
  }

  /** A save that lands leaves the text in the language file. */
  lemma LanguageSaveWrites(d: Storage.Disk, f: Storage.Faults, language: string)
    requires LanguageSaveLands(d, f)
    ensures LANGUAGE_FILE in SaveLanguage(d, f, language).files && SaveLanguage(d, f, language).files[LANGUAGE_FILE] == language
  {
  }

  /** A save that landed is read back as the same text, provided the text has no white space at its ends. */
  lemma {:induction false} LanguageSaveReadBack(d: Storage.Disk, f: Storage.Faults, language: string)
    requires LanguageSaveLands(d, f) && Text.IsTrimmed(language)
    requires LANGUAGE_FILE !in f.existsFails && LANGUAGE_FILE !in f.readFails
    ensures GetStoredLanguage(SaveLanguage(d, f, language), f) == Some(language)
  {
    LanguageSaveWrites(d, f, language);
    Text.TrimKeepsTrimmed(language);
  }

  /** A non-empty stored language wins over the system language. */
  lemma InitializeWithStored(d: Storage.Disk, f: Storage.Faults, native: Result<string>, stored: string)
    requires GetStoredLanguage(d, f) == Some(stored) && stored != ""
    ensures InitializeI18n(d, f, native, true).language == stored
  {
  }

  /** A language change whose save landed survives a restart, whatever the system language. */
  lemma {:induction false} LanguageRoundTrip(s: I18nState, d: Storage.Disk, f: Storage.Faults, l: Language, native: Result<string>)
    requires LanguageSaveLands(d, f)
    requires LANGUAGE_FILE !in f.existsFails && LANGUAGE_FILE !in f.readFails
    ensures InitializeI18n(ChangeLanguage(s, d, f, l).1, f, native, true).language == Code(l)
  {
    var c := Code(l);
    CodeSurvivesTrim(l);
    LanguageSaveReadBack(d, f, c);
    var d1 := ChangeLanguage(s, d, f, l).1;
    InitializeWithStored(d1, f, native, c);
  }
}

=== FILE: native_language.dfy ===
/** The native `get_system_language` command, one body per target platform. */
module NativeLanguage {

  /** The platform the binary was built for, with what Windows reports from `GetUserDefaultLCID`. */
  datatype Platform = Windows(lcid: int) | MacOS | Linux

  /** The Windows locale identifier of Russian (0x0419). */
  const RUSSIAN_LCID: int := 1049

  /** Russian exactly on Windows with the Russian LCID; English everywhere else, including macOS and Linux. */
  function GetSystemLanguage(p: Platform): (r: string)
    ensures r == "ru" || r == "en"
    ensures r == "ru" <==> p.Windows? && p.lcid == RUSSIAN_LCID
  {
    match p
    case Windows(lcid) => if lcid == RUSSIAN_LCID then "ru" else "en"
    case MacOS => "en"
    case Linux => "en"
  }
}

=== FILE: preferences.dfy ===
/** How the two preference files relate: one directory, two separate files, two different save policies. */
module Preferences {
  import Storage
  import ThemeTypes
  import ThemeUtils
  import I18n

  /** Both preferences live in the same settings directory, in different files. */
  lemma SharedDirectorySeparateFiles()
    ensures ThemeTypes.STORAGE_DIR == I18n.SETTINGS_DIR
    ensures ThemeTypes.STORAGE_FILE != I18n.LANGUAGE_FILE
  {
    assert ThemeTypes.STORAGE_FILE[9] != I18n.LANGUAGE_FILE[9];
  }

  /** Saving the language leaves the stored theme as it was. */
  lemma LanguageSaveKeepsTheme(d: Storage.Disk, f: Storage.Faults, language: string)
    ensures ThemeUtils.GetStoredTheme(I18n.SaveLanguage(d, f, language), f) == ThemeUtils.GetStoredTheme(d, f)
  {
    SharedDirectorySeparateFiles();
    var d1 := I18n.SaveLanguage(d, f, language);
    assert ThemeTypes.STORAGE_FILE in d1.files - {I18n.LANGUAGE_FILE} <==> ThemeTypes.STORAGE_FILE in d.files - {I18n.LANGUAGE_FILE};
    if ThemeTypes.STORAGE_FILE in d.files {
      assert d1.files[ThemeTypes.STORAGE_FILE] == (d1.files - {I18n.LANGUAGE_FILE})[ThemeTypes.STORAGE_FILE];
    }
  }

  /** Saving the theme leaves the stored language as it was. */
  lemma ThemeSaveKeepsLanguage(d: Storage.Disk, f: Storage.Faults, t: ThemeTypes.Theme)
    ensures I18n.GetStoredLanguage(ThemeUtils.SaveTheme(d, f, t), f) == I18n.GetStoredLanguage(d, f)
  {
    SharedDirectorySeparateFiles();
    var d1 := ThemeUtils.SaveTheme(d, f, t);
    assert I18n.LANGUAGE_FILE in d1.files - {ThemeTypes.STORAGE_FILE} <==> I18n.LANGUAGE_FILE in d.files - {ThemeTypes.STORAGE_FILE};
    if I18n.LANGUAGE_FILE in d.files {
      assert d1.files[I18n.LANGUAGE_FILE] == (d1.files - {ThemeTypes.STORAGE_FILE})[I18n.LANGUAGE_FILE];
    }
  }

  /**
   * With no fault on either file itself, whenever the language save lands the
   * theme save lands too: the theme's directory step swallows its failures and
   * still tries the write.
   */
  lemma ThemeSaveAtLeastAsPermissive(d: Storage.Disk, f: Storage.Faults)
    requires ThemeTypes.STORAGE_FILE !in f.writeFails && ThemeTypes.STORAGE_FILE !in d.dirs
    requires I18n.LanguageSaveLands(d, f)
    ensures ThemeUtils.ThemeSaveLands(d, f)
  {
    SharedDirectorySeparateFiles();
  }

  /**
   * The converse fails: when checking for the existing settings directory
   * throws, the theme is still written but the language write is skipped.
   */
  lemma DirectoryCheckFailureSplitsThePaths()
    ensures var d := Storage.Disk(map[], {"settings"});
      var f := Storage.Faults({"settings"}, {}, {}, {});
      && ThemeUtils.SaveTheme(d, f, ThemeTypes.Dark).files == map[ThemeTypes.STORAGE_FILE := "dark"]
      && I18n.SaveLanguage(d, f, "ru") == d
  {
    SharedDirectorySeparateFiles();
    var d := Storage.Disk(map[], {"settings"});
    var f := Storage.Faults({"settings"}, {}, {}, {});
    assert ThemeUtils.ThemeSaveLands(d, f);
    assert I18n.EnsureSettingsDirectory(d, f).Err?;
  }
}

=== FILE: storage.dfy ===
/**
 * The application-local-data directory as the Tauri fs plugin presents it
 * (`exists`, `mkdir`, `readTextFile`, `writeTextFile`), with the host's
 * failures made explicit: every call may throw, and which ones do is an input.
 */
module Storage {
  import opened Wrappers
  import Text

  /** Text files by relative path, and the directories that exist. The base directory itself is `""`. */
  datatype Disk = Disk(files: map<string, string>, dirs: set<string>)

  /** The paths on which each host call throws (permission denied, I/O error, ...). */
  datatype Faults = Faults(existsFails: set<string>, mkdirFails: set<string>, readFails: set<string>, writeFails: set<string>)

  const NoFaults := Faults({}, {}, {}, {})

  /** The directory part of a relative path: everything before its last `/`, or the base directory. */
  function ParentDir(path: string): (r: string)
    ensures r != "" ==> |r| < |path| && r == path[..|r|] && path[|r|] == '/' && '/' !in path[|r| + 1..]
    ensures r == "" ==> '/' !in path || path[0] == '/'
  {
    match Text.LastIndexOf(path, '/')
    case None => ""
    case Some(i) => path[..i]
  }

  predicate DirPresent(d: Disk, dir: string) {
    dir == "" || dir in d.dirs
  }

  /** `exists(path)`: true for files and directories alike. */
  function PathExists(d: Disk, f: Faults, path: string): (r: Result<bool>)
    ensures r.Err? <==> path in f.existsFails
    ensures r.Ok? ==> (r.value <==> path in d.files || path in d.dirs)
  {
    if path in f.existsFails then Err("exists failed") else Ok(path in d.files || path in d.dirs)
  }

  /** `mkdir(path)` without `recursive`: fails when the path is taken or its parent is missing. */
  function Mkdir(d: Disk, f: Faults, path: string): (r: Result<Disk>)
    ensures r.Ok? <==> path !in f.mkdirFails && path !in d.files && path !in d.dirs && path != "" && DirPresent(d, ParentDir(path))
    ensures r.Ok? ==> r.value == Disk(d.files, d.dirs + {path})
  {
    if path in f.mkdirFails then Err("mkdir failed")
    else if path in d.files || path in d.dirs || path == "" then Err("path exists")
    else if !DirPresent(d, ParentDir(path)) then Err("parent missing")
    else Ok(Disk(d.files, d.dirs + {path}))
  }

  /** `readTextFile(path)`: the file's whole contents. */
  function ReadTextFile(d: Disk, f: Faults, path: string): (r: Result<string>)
    ensures r.Ok? <==> path !in f.readFails && path in d.files
    ensures r.Ok? ==> r.value == d.files[path]
  {
    if path in f.readFails || path !in d.files then Err("read failed") else Ok(d.files[path])
  }

  /** A write to `path` goes through exactly when the host allows it and the containing directory exists. */
  predicate WriteSucceeds(d: Disk, f: Faults, path: string) {
    path !in f.writeFails && path !in d.dirs && DirPresent(d, ParentDir(path))
  }

  /** `writeTextFile(path, contents)`: replaces (or creates) that one file and nothing else. */
  function WriteTextFile(d: Disk, f: Faults, path: string, contents: string): (r: Result<Disk>)
    ensures r.Ok? <==> WriteSucceeds(d, f, path)
    ensures r.Ok? ==> r.value.dirs == d.dirs && r.value.files == d.files[path := contents]
  {
    if WriteSucceeds(d, f, path) then Ok(Disk(d.files[path := contents], d.dirs)) else Err("write failed")
  }
}

=== FILE: text.dfy ===
/**
 * String helpers the source takes from its runtime libraries: `trim`,
 * `toLowerCase`/`to_lowercase`, `startsWith`/`starts_with`, `includes`, and
 * the byte-wise ordering Rust uses to compare `String`s.
 */
module Text {
  import opened Wrappers

  /** The characters ECMAScript `String.prototype.trim` strips: white space and line terminators. */
  predicate IsWhitespace(c: char) {
    || c == ' ' || c == '\t' || c == '\n' || c == '\r' || c == '\U{000B}' || c == '\U{000C}'
    || c == '\U{00A0}' || c == '\U{1680}' || ('\U{2000}' <= c <= '\U{200A}')
    || c == '\U{2028}' || c == '\U{2029}' || c == '\U{202F}' || c == '\U{205F}'
    || c == '\U{3000}' || c == '\U{FEFF}'
  }

  predicate AllWhitespace(s: string) {
    forall i :: 0 <= i < |s| ==> IsWhitespace(s[i])
  }

  /** No white space at either end. */
  predicate IsTrimmed(s: string) {
    |s| == 0 || (!IsWhitespace(s[0]) && !IsWhitespace(s[|s| - 1]))
  }

  function TrimStart(s: string): (r: string)
    ensures |r| <= |s| && r == s[|s| - |r|..]
    ensures AllWhitespace(s[..|s| - |r|])
    ensures |r| == 0 || !IsWhitespace(r[0])
  {
    if |s| > 0 && IsWhitespace(s[0]) then TrimStart(s[1..]) else s
  }

  function TrimEnd(s: string): (r: string)
    ensures |r| <= |s| && r == s[..|r|]
    ensures AllWhitespace(s[|r|..])
    ensures |r| == 0 || !IsWhitespace(r[|r| - 1])
  {
    if |s| > 0 && IsWhitespace(s[|s| - 1]) then TrimEnd(s[..|s| - 1]) else s
  }

  /** `s.trim()`: `s` without the white space at either end. */
  function Trim(s: string): (r: string)
    ensures IsTrimmed(r)
    ensures |r| <= |s|
  {
    TrimEnd(TrimStart(s))
  }

  /** Trimming removes white space and nothing else: the result is a slice of `s` with only white space around it. */
  lemma TrimRemovesOnlyWhitespace(s: string)
    ensures exists i, j :: 0 <= i <= j <= |s| && Trim(s) == s[i..j] && AllWhitespace(s[..i]) && AllWhitespace(s[j..])
  {
    var t := TrimStart(s);
    var r := TrimEnd(t);
    var i := |s| - |t|;
    assert r == s[i..i + |r|];
    assert s[i + |r|..] == t[|r|..];
  }

  /** A string already free of white space at its ends is left as it is. */
  lemma TrimKeepsTrimmed(s: string)
    requires IsTrimmed(s)
    ensures Trim(s) == s
  {
  }

  /** ASCII case folding of one character. */
  function LowerChar(c: char): (r: char)
    ensures 'A' <= c <= 'Z' ==> r as int == c as int + 32
    ensures !('A' <= c <= 'Z') ==> r == c
  {
    if 'A' <= c <= 'Z' then (c as int + 32) as char else c
  }

  /** `toLowerCase()` restricted to ASCII letters: same length, each character folded. */
  function Lower(s: string): (r: string)
    ensures |r| == |s|
    ensures forall i :: 0 <= i < |s| ==> r[i] == LowerChar(s[i])
  {
    if |s| == 0 then "" else [LowerChar(s[0])] + Lower(s[1..])
  }

  /** Position of the last occurrence of `c` in `s`, if any. */
  function LastIndexOf(s: string, c: char): (r: Option<nat>)
    ensures r.Some? ==> r.value < |s| && s[r.value] == c
    ensures r.Some? ==> forall j :: r.value < j < |s| ==> s[j] != c
    ensures r.None? ==> forall j :: 0 <= j < |s| ==> s[j] != c
  {
    if |s| == 0 then None
    else if s[|s| - 1] == c then Some(|s| - 1)
    else LastIndexOf(s[..|s| - 1], c)
  }

  predicate StartsWith(s: string, prefix: string) {
    |prefix| <= |s| && s[..|prefix|] == prefix
  }

  /** `s.includes(t)`: `t` occurs as a contiguous block somewhere in `s`. */
  predicate Contains(s: string, t: string)
    decreases |s|
  {
    StartsWith(s, t) || (|s| > 0 && Contains(s[1..], t))
  }

  /** `t` occurs in `s` starting at position `i`. */
  predicate OccursAt(s: string, t: string, i: int) {
    0 <= i && i + |t| <= |s| && s[i..i + |t|] == t
  }

  /** An occurrence past the first position is an occurrence in the tail, one position earlier. */
  lemma OccursAtTail(s: string, t: string, i: int)
    requires |s| > 0 && i >= 1
    ensures OccursAt(s, t, i) <==> OccursAt(s[1..], t, i - 1)
  {
    if i + |t| <= |s| {
      assert s[1..][i - 1..i - 1 + |t|] == s[i..i + |t|];
    }
  }

  /** The recursive search agrees with the positional definition of a substring. */
  lemma {:induction false} ContainsIff(s: string, t: string)
    ensures Contains(s, t) <==> exists i :: OccursAt(s, t, i)
    decreases |s|
  {
    if StartsWith(s, t) {
      assert OccursAt(s, t, 0);
    } else if |s| > 0 {
      ContainsIff(s[1..], t);
      if Contains(s[1..], t) {
        var i :| OccursAt(s[1..], t, i);
        OccursAtTail(s, t, i + 1);
      } else {
        forall i | OccursAt(s, t, i)
          ensures false
        {
          if i > 0 {
            OccursAtTail(s, t, i);
          }
        }
      }
    }
  }

  /** Rust `String` ordering: lexicographic by character (UTF-8 byte order equals code point order). */
  predicate LexLeq(a: string, b: string)
    decreases |a|
  {
    |a| == 0 || (|b| > 0 && (a[0] < b[0] || (a[0] == b[0] && LexLeq(a[1..], b[1..]))))
  }

  lemma {:induction false} LexLeqTotal(a: string, b: string)
    ensures LexLeq(a, b) || LexLeq(b, a)
    decreases |a|
  {
    if |a| > 0 && |b| > 0 && a[0] == b[0] {
      LexLeqTotal(a[1..], b[1..]);
    }
  }

  lemma {:induction false} LexLeqTrans(a: string, b: string, c: string)
    requires LexLeq(a, b) && LexLeq(b, c)
    ensures LexLeq(a, c)
    decreases |a|
  {
    if |a| > 0 && a[0] == b[0] && b[0] == c[0] {
      LexLeqTrans(a[1..], b[1..], c[1..]);
    }
  }
}

=== FILE: theme_provider.dfy ===
/**
 * The theme controller: `ThemeProvider`'s state (`theme`, `resolvedTheme`,
 * `mounted`, and whether a system-change listener is installed) and its three
 * effects and `setTheme`, written as transitions. The host's answers (the
 * appearance query, the native window call, the disk) are inputs.
 */
module ThemeProvider {
  import opened Wrappers
  import Storage
  import opened ThemeTypes
  import opened ThemeUtils

  /** What the host answers while a transition runs. */
  datatype Env = Env(appearance: Appearance, nativeOk: bool)

  /**
   * `theme` and `resolved` are texts because the stored preference is adopted
   * without being checked; `listening` says whether the OS change listener is
   * subscribed.
   */
  datatype ThemeState = ThemeState(theme: string, resolved: string, mounted: bool, listening: bool, view: View)

  /** The default of the `defaultTheme` property. */
  const DEFAULT_THEME: Theme := System

  /** Nothing inside the provider is rendered before it has mounted. */
  predicate Renders(s: ThemeState) {
    s.mounted
  }

  /** The listener is subscribed exactly while the provider is mounted in system mode. */
  predicate ListenerInvariant(s: ThemeState) {
    s.listening <==> s.mounted && s.theme == Name(System)
  }

  /** The states the controller keeps when every theme it is handed is one of the three modes. */
  predicate Valid(s: ThemeState) {
    && ListenerInvariant(s)
    && Parse(s.theme).Some?
    && IsResolved(s.resolved)
    && (s.mounted ==> s.resolved in s.view.classes && (("light" in s.view.classes) != ("dark" in s.view.classes)))
    && (s.mounted && s.theme != Name(System) ==> s.resolved == s.theme)
  }

  /** The first render: the default mode, an appearance guessed from the system, not mounted, nothing subscribed. */
  function Init(defaultTheme: Theme, a: Appearance, view: View): (s: ThemeState)
    ensures s.theme == Name(defaultTheme) && !s.mounted && !s.listening && !Renders(s)
    ensures s.resolved == "dark" <==> a.Window? && a.prefersDark
    ensures s.view == view
    ensures Valid(s)
  {
    ThemeState(Name(defaultTheme), GetSystemTheme(a), false, false, view)
  }

  /**
   * A render that sets `theme` and `mounted` to new values. The resolve effect
   * and the listener effect depend on exactly these two, so they rerun only when
   * one of them changed: the old listener is unsubscribed, and once mounted the
   * value is resolved, applied to the document and window, and a listener is
   * subscribed when in system mode. A resolved text the class list refuses
   * makes the resolve effect throw before the window is synced.
   */
  function Commit(s: ThemeState, theme: string, mounted: bool, env: Env): (r: ThemeState)
    ensures r.theme == theme && r.mounted == mounted
    ensures theme == s.theme && mounted == s.mounted ==> r == s
    ensures !mounted ==> r.resolved == s.resolved && r.view == s.view
    ensures (theme != s.theme || mounted != s.mounted) && !mounted ==> !r.listening
    ensures (theme != s.theme || mounted != s.mounted) && mounted ==>
              && r.resolved == (if theme == Name(System) then GetSystemTheme(env.appearance) else theme)
              && r.listening == (theme == Name(System))
              && r.view.syncCalls == s.view.syncCalls + (if ValidToken(r.resolved) then 1 else 0)
              && (ValidToken(r.resolved) ==> r.resolved in r.view.classes)
              && (!ValidToken(r.resolved) ==> r.view == s.view.(classes := s.view.classes - {"light", "dark"}))
              && (env.nativeOk && ValidToken(r.resolved) ==>
                    r.view.windowTheme == Some(r.resolved) && r.view.background == Some(BackgroundFor(r.resolved)))
              && (!env.nativeOk ==> r.view.windowTheme == s.view.windowTheme && r.view.background == s.view.background)
  {
    if theme == s.theme && mounted == s.mounted then s
    else if !mounted then s.(theme := theme, mounted := mounted, listening := false)
    else
      var resolved := if theme == Name(System) then GetSystemTheme(env.appearance) else theme;
      ThemeState(theme, resolved, true, theme == Name(System), ApplyResolved(s.view, resolved, env.nativeOk))
  }

  /**
   * The load effect's completion: a non-empty stored text is adopted verbatim as
   * the theme (null and empty keep the current one) and the provider mounts.
   */
  function Load(s: ThemeState, stored: Option<string>, env: Env): (r: ThemeState)
    ensures r.mounted && Renders(r)
    ensures r.theme == (if stored.Some? && stored.value != "" then stored.value else s.theme)
  {
    var theme := if stored.Some? && stored.value != "" then stored.value else s.theme;
    Commit(s, theme, true, env)
  }

  /** The OS listener: while subscribed, the new appearance is resolved and applied; otherwise nothing happens. */
  function SystemChanged(s: ThemeState, isDark: bool, nativeOk: bool): (r: ThemeState)
    ensures r.theme == s.theme && r.mounted == s.mounted && r.listening == s.listening
    ensures s.listening ==> r.resolved == ThemeOfEvent(isDark) && r.view == ApplyResolved(s.view, ThemeOfEvent(isDark), nativeOk)
    ensures !s.listening ==> r == s
  {
    if s.listening then
      var t := ThemeOfEvent(isDark);
      s.(resolved := t, view := ApplyResolved(s.view, t, nativeOk))
    else s
  }

  /**
   * The context's `setTheme`: the in-memory mode changes first, then the mode
   * is saved; a save that fails changes nothing in memory.
   */
  function SetTheme(s: ThemeState, t: Theme, env: Env, d: Storage.Disk, f: Storage.Faults): (r: (ThemeState, Storage.Disk))
    ensures r.0.theme == Name(t) && r.0.mounted == s.mounted
    ensures Name(t) == s.theme ==> r.0 == s
    ensures Name(t) != s.theme && s.mounted ==>
              && r.0.resolved == (if t == System then GetSystemTheme(env.appearance) else Name(t))
              && IsResolved(r.0.resolved)
              && r.0.listening == (t == System)
              && r.0.view.syncCalls == s.view.syncCalls + 1
    ensures Name(t) != s.theme && !s.mounted ==> r.0.resolved == s.resolved && r.0.view == s.view && !r.0.listening
    ensures r.1.files == (if ThemeSaveLands(d, f) then d.files[STORAGE_FILE := Name(t)] else d.files)
    ensures d.dirs <= r.1.dirs <= d.dirs + {STORAGE_DIR}
  {
    (Commit(s, Name(t), s.mounted, env), SaveTheme(d, f, t))
  }

  /** Mounting resolves the mode: the system's appearance in system mode, the mode itself otherwise. */
  lemma LoadResolves(s: ThemeState, stored: Option<string>, env: Env)
    requires Valid(s) && !s.mounted
    ensures var r := Load(s, stored, env);
      && r.resolved == (if r.theme == Name(System) then GetSystemTheme(env.appearance) else r.theme)
      && r.listening == (r.theme == Name(System))
      && r.view.syncCalls == s.view.syncCalls + (if ValidToken(r.resolved) then 1 else 0)
  {
  }

  /** Loading a stored mode (or nothing, or an empty text) keeps the controller valid. */
  lemma LoadPreservesValid(s: ThemeState, stored: Option<string>, env: Env)
    requires Valid(s)
    requires stored.Some? && stored.value != "" ==> Parse(stored.value).Some?
    ensures Valid(Load(s, stored, env))
  {
  }

  /** The listener only ever resolves to a concrete appearance and keeps exactly one appearance class. */
  lemma SystemChangedPreservesValid(s: ThemeState, isDark: bool, nativeOk: bool)
    requires Valid(s)
    ensures Valid(SystemChanged(s, isDark, nativeOk))
  {
  }

  lemma SetThemePreservesValid(s: ThemeState, t: Theme, env: Env, d: Storage.Disk, f: Storage.Faults)
    requires Valid(s)
    ensures Valid(SetTheme(s, t, env, d, f).0)
  {
  }

  /** Before mounting nothing is subscribed, so an OS change is ignored; in an explicit mode it is ignored too. */
  lemma OsChangeIgnoredUnlessSystem(s: ThemeState, isDark: bool, nativeOk: bool)
    requires ListenerInvariant(s)
    requires !s.mounted || s.theme != Name(System)
    ensures SystemChanged(s, isDark, nativeOk) == s
  {
  }

  /** In system mode after mounting, an OS change updates the resolved appearance and resyncs the window once. */
  lemma OsChangeFollowedInSystemMode(s: ThemeState, isDark: bool, nativeOk: bool)
    requires ListenerInvariant(s)
    requires s.mounted && s.theme == Name(System)
    ensures SystemChanged(s, isDark, nativeOk).resolved == (if isDark then "dark" else "light")
    ensures SystemChanged(s, isDark, nativeOk).view.syncCalls == s.view.syncCalls + 1
    ensures nativeOk ==> SystemChanged(s, isDark, nativeOk).view.background == Some(if isDark then DARK_BACKGROUND else LIGHT_BACKGROUND)
  {
  }

  /** Choosing `system` on a mounted provider resolves to the OS appearance and subscribes to its changes. */
  lemma SetSystemFollowsOs(s: ThemeState, env: Env, d: Storage.Disk, f: Storage.Faults)
    requires Valid(s) && s.mounted
    ensures var r := SetTheme(s, System, env, d, f).0;
      && r.listening
      && (s.theme != Name(System) ==> r.resolved == GetSystemTheme(env.appearance))
      && IsResolved(r.resolved)
  {
  }

  /** Leaving system mode unsubscribes the listener. */
  lemma LeavingSystemUnsubscribes(s: ThemeState, t: Theme, env: Env, d: Storage.Disk, f: Storage.Faults)
    requires ListenerInvariant(s)
    requires t != System
    ensures !SetTheme(s, t, env, d, f).0.listening
  {
  }

  /** The in-memory mode is the one requested whether or not the save reaches the disk. */
  lemma SetThemeIndependentOfSave(s: ThemeState, t: Theme, env: Env, d: Storage.Disk, f1: Storage.Faults, f2: Storage.Faults)
    ensures SetTheme(s, t, env, d, f1).0 == SetTheme(s, t, env, d, f2).0
  {
  }

  /** Setting the same mode twice: the second call changes no state, applies nothing and calls the window no more. */
  lemma SetThemeIdempotent(s: ThemeState, t: Theme, env: Env, env': Env, d: Storage.Disk, f: Storage.Faults)
    ensures var (s1, d1) := SetTheme(s, t, env, d, f);
      SetTheme(s1, t, env', d1, f) == (s1, d1)
  {
    SaveThemeIdempotent(d, f, t);
  }

  /** Loading a mode's text into an unmounted valid controller adopts and resolves that mode. */
  lemma LoadStoredMode(s: ThemeState, t: Theme, env: Env)
    requires Valid(s) && !s.mounted
    ensures var r := Load(s, Some(Name(t)), env);
      && r.theme == Name(t)
      && r.resolved == (if t == System then GetSystemTheme(env.appearance) else Name(t))
      && Valid(r)
  {
    LoadPreservesValid(s, Some(Name(t)), env);
    LoadResolves(s, Some(Name(t)), env);
  }

  /**
   * A restart after a save that landed: a fresh provider loads the saved mode
   * and resolves it as that mode dictates.
   */
  lemma RestartRestoresTheme(s: ThemeState, t: Theme, env: Env, d: Storage.Disk, f: Storage.Faults, default: Theme, view: View)
    requires ThemeSaveLands(d, f)
    requires STORAGE_FILE !in f.existsFails && STORAGE_FILE !in f.readFails
    ensures var r := Load(Init(default, env.appearance, view), GetStoredTheme(SetTheme(s, t, env, d, f).1, f), env);
      && r.theme == Name(t)
      && r.resolved == (if t == System then GetSystemTheme(env.appearance) else Name(t))
      && Valid(r)
  {
    ThemeRoundTrip(d, f, t);
    LoadStoredMode(Init(default, env.appearance, view), t, env);
  }

  /** Fresh install: no theme file, so the provider follows the system, and loading writes nothing. */
  lemma FreshInstallFollowsSystem(a: Appearance, view: View, d: Storage.Disk, f: Storage.Faults)
    requires STORAGE_FILE !in d.files
    ensures var r := Load(Init(DEFAULT_THEME, a, view), GetStoredTheme(d, f), Env(a, true));
      && r.theme == Name(System) && r.listening
      && r.resolved == GetSystemTheme(a)
  {
  }

  /**
   * The source adopts a stored text without checking it: a theme file saying
   * `purple` makes `purple` the resolved appearance, leaves neither appearance
   * class on the document, and paints the light background.
   */
  lemma CorruptStoredThemeLeaks(a: Appearance)
    ensures var v := View({}, None, None, 0);
      var r := Load(Init(DEFAULT_THEME, a, v), Some("purple"), Env(a, true));
      && r.resolved == "purple" && !IsResolved(r.resolved)
      && "light" !in r.view.classes && "dark" !in r.view.classes
      && r.view.background == Some(LIGHT_BACKGROUND)
      && !Valid(r)
  {
  }

  /**
   * A stored text with white space inside survives the trim and is adopted,
   * but the class list refuses it: both appearance classes are removed, the
   * resolve effect throws, and the window is never synced.
   */
  lemma InnerSpaceThemeStopsBeforeSync(a: Appearance)
    ensures var v := View({"light"}, None, None, 0);
      var r := Load(Init(DEFAULT_THEME, a, v), Some("dark mode"), Env(a, true));
      && r.theme == "dark mode" && r.resolved == "dark mode"
      && r.view == View({}, None, None, 0)
      && !r.listening
  {
    assert "dark mode"[4] == ' ';
  }
}

=== FILE: theme_types.dfy ===
/** The theme domain and where its preference is stored. */
module ThemeTypes {
  import opened Wrappers
  import Storage
  import Text

  /** The three theme modes; `System` follows the operating system's appearance. */
  datatype Theme = Light | Dark | System

  /** The text form of a mode, as the application writes and compares it. */
  function Name(t: Theme): string {
    match t
    case Light => "light"
    case Dark => "dark"
    case System => "system"
  }

  /** The mode a text denotes, if it denotes one. */
  function Parse(s: string): (r: Option<Theme>)
    ensures r.Some? ==> Name(r.value) == s
  {
    if s == "light" then Some(Light)
    else if s == "dark" then Some(Dark)
    else if s == "system" then Some(System)
    else None
  }

  /** Every mode's text form parses back to it, and the three texts are exactly the domain. */
  lemma ParseName(t: Theme)
    ensures Parse(Name(t)) == Some(t)
  {
  }

  lemma ThemeDomain(s: string)
    ensures Parse(s).Some? <==> s in {"light", "dark", "system"}
  {
  }

  /** Mode names carry no surrounding white space, so trimming on read gives them back unchanged. */
  lemma NameSurvivesTrim(t: Theme)
    ensures Text.Trim(Name(t)) == Name(t)
  {
    var n := Name(t);
    assert !Text.IsWhitespace(n[0]) && !Text.IsWhitespace(n[|n| - 1]);
    Text.TrimKeepsTrimmed(n);
  }

  /** A concrete appearance: what `resolvedTheme` is declared to range over. */
  predicate IsResolved(s: string) {
    s == "light" || s == "dark"
  }

  const STORAGE_DIR: string := "settings"
  const STORAGE_FILE: string := "settings/theme.txt"

  /** The theme file lives directly inside the settings directory. */
  lemma StorageFileInsideDir()
    ensures STORAGE_FILE == STORAGE_DIR + "/theme.txt"
    ensures Storage.ParentDir(STORAGE_FILE) == STORAGE_DIR
  {
    var p := STORAGE_FILE;
    assert forall i :: 0 <= i < |p| ==> p[i] == (STORAGE_DIR + "/theme.txt")[i];
    assert p[8] == '/';
    assert forall j :: 8 < j < |p| ==> p[j] != '/';
    assert Text.LastIndexOf(p, '/') == Some(8);
    assert p[..8] == STORAGE_DIR;
  }
}

=== FILE: theme_utils.dfy ===
/**
 * The theme helpers: the operating-system query, the theme file's
 * storage, and the synchronisation of the document and native window.
 */
module ThemeUtils {
  import opened Wrappers
  import Text
  import Storage
  import opened ThemeTypes

  /** What `window.matchMedia("(prefers-color-scheme: dark)")` can see: no window at all, or one whose query matches or not. */
  datatype Appearance = NoWindow | Window(prefersDark: bool)

  /** The operating system's theme: light without a window, otherwise dark exactly when the dark-scheme query matches. */
  function GetSystemTheme(a: Appearance): (r: string)
    ensures IsResolved(r)
    ensures r == "dark" <==> a.Window? && a.prefersDark
  {
    if a.NoWindow? then "light" else if a.prefersDark then "dark" else "light"
  }

  /** The theme a change notification reports. */
  function ThemeOfEvent(isDark: bool): (r: string)
    ensures IsResolved(r)
    ensures r == "dark" <==> isDark
  {
    if isDark then "dark" else "light"
  }

  /** `initThemeStorage`: create the settings directory if it is absent; every failure is swallowed. */
  function InitThemeStorage(d: Storage.Disk, f: Storage.Faults): (r: Storage.Disk)
    ensures r.files == d.files
    ensures r.dirs == d.dirs || r.dirs == d.dirs + {STORAGE_DIR}
    ensures STORAGE_DIR in d.dirs ==> r == d
    ensures STORAGE_DIR in r.dirs <==>
              STORAGE_DIR in d.dirs
              || (STORAGE_DIR !in f.existsFails && STORAGE_DIR !in f.mkdirFails && STORAGE_DIR !in d.files)
  {
    StorageFileInsideDir();
    match Storage.PathExists(d, f, STORAGE_DIR)
    case Err(_) => d
    case Ok(present) =>
      if present then d
      else match Storage.Mkdir(d, f, STORAGE_DIR)
        case Ok(d') => d'
        case Err(_) => d
  }

  /** Creating the directory twice is creating it once. */
  lemma InitThemeStorageIdempotent(d: Storage.Disk, f: Storage.Faults)
    ensures InitThemeStorage(InitThemeStorage(d, f), f) == InitThemeStorage(d, f)
  {
  }

  /** `getStoredTheme`: the trimmed contents of the theme file, or nothing when it is missing or any call throws. */
  function GetStoredTheme(d: Storage.Disk, f: Storage.Faults): (r: Option<string>)
    ensures r.Some? <==> STORAGE_FILE !in f.existsFails && STORAGE_FILE !in f.readFails && STORAGE_FILE in d.files
    ensures r.Some? ==> r.value == Text.Trim(d.files[STORAGE_FILE])
    ensures r.Some? ==> Text.IsTrimmed(r.value)
  {
    match Storage.PathExists(d, f, STORAGE_FILE)
    case Err(_) => None
    case Ok(present) =>
      if !present then None
      else match Storage.ReadTextFile(d, f, STORAGE_FILE)
        case Err(_) => None
        case Ok(contents) => Some(Text.Trim(contents))
  }

  /** The stored text is handed back whatever it is: it need not name a theme. */
  lemma StoredThemeNotValidated()
    ensures GetStoredTheme(Storage.Disk(map[STORAGE_FILE := "purple"], {STORAGE_DIR}), Storage.NoFaults) == Some("purple")
    ensures Parse("purple").None?
  {
    var d := Storage.Disk(map[STORAGE_FILE := "purple"], {STORAGE_DIR});
    assert d.files[STORAGE_FILE] == "purple";
    assert Text.Trim("purple") == "purple" by {
      assert Text.IsTrimmed("purple");
      Text.TrimKeepsTrimmed("purple");
    }
  }

  /** Whether the theme save reaches the disk: the directory is there or can be made, and the write is allowed. */
  predicate ThemeSaveLands(d: Storage.Disk, f: Storage.Faults) {
    && STORAGE_FILE !in f.writeFails
    && STORAGE_FILE !in d.dirs
    && (STORAGE_DIR in d.dirs
        || (STORAGE_DIR !in f.existsFails && STORAGE_DIR !in f.mkdirFails && STORAGE_DIR !in d.files))
  }

  /** `saveTheme`: never throws; writes the mode's text to the theme file and touches no other file. */
  function SaveTheme(d: Storage.Disk, f: Storage.Faults, t: Theme): (r: Storage.Disk)
    ensures r.files == (if ThemeSaveLands(d, f) then d.files[STORAGE_FILE := Name(t)] else d.files)
    ensures r.files - {STORAGE_FILE} == d.files - {STORAGE_FILE}
    ensures d.dirs <= r.dirs <= d.dirs + {STORAGE_DIR}
  {
    StorageFileInsideDir();
    var d1 := InitThemeStorage(d, f);
    match Storage.WriteTextFile(d1, f, STORAGE_FILE, Name(t))
    case Ok(d2) => d2
    case Err(_) => d1
  }

  /** Saving the same mode twice leaves the disk as saving it once. */
  lemma SaveThemeIdempotent(d: Storage.Disk, f: Storage.Faults, t: Theme)
    ensures SaveTheme(SaveTheme(d, f, t), f, t) == SaveTheme(d, f, t)
  {
    StorageFileInsideDir();
    var d1 := SaveTheme(d, f, t);
    InitThemeStorageIdempotent(d, f);
    if ThemeSaveLands(d, f) {
      assert ThemeSaveLands(d1, f);
      assert d1.files[STORAGE_FILE := Name(t)] == d1.files;
    } else {
      assert !ThemeSaveLands(d1, f);
    }
  }

  /** A save that lands leaves the mode's text in the theme file. */
  lemma ThemeSaveWrites(d: Storage.Disk, f: Storage.Faults, t: Theme)
    requires ThemeSaveLands(d, f)
    ensures STORAGE_FILE in SaveTheme(d, f, t).files && SaveTheme(d, f, t).files[STORAGE_FILE] == Name(t)
  {
  }

  /** A save that lands is read back as the same mode. */
  lemma {:induction false} ThemeRoundTrip(d: Storage.Disk, f: Storage.Faults, t: Theme)
    requires ThemeSaveLands(d, f)
    requires STORAGE_FILE !in f.existsFails && STORAGE_FILE !in f.readFails
    ensures GetStoredTheme(SaveTheme(d, f, t), f) == Some(Name(t))
    ensures Parse(GetStoredTheme(SaveTheme(d, f, t), f).value) == Some(t)
  {
    ThemeSaveWrites(d, f, t);
    NameSurvivesTrim(t);
    ParseName(t);
  }

  /** The document's state and the native window's, as far as the theme touches them. */
  datatype View = View(classes: set<string>, background: Option<string>, windowTheme: Option<string>, syncCalls: nat)

  const DARK_BACKGROUND: string := "rgb(9, 9, 11)"
  const LIGHT_BACKGROUND: string := "rgb(255, 255, 255)"

  /** The background colour the application paints: the dark one for `dark`, the light one for anything else. */
  function BackgroundFor(t: string): (r: string)
    ensures t == "dark" ==> r == DARK_BACKGROUND
    ensures t != "dark" ==> r == LIGHT_BACKGROUND
  {
    if t == "dark" then DARK_BACKGROUND else LIGHT_BACKGROUND
  }

  /**
   * `syncWindowTheme`: one call to the native `setTheme` (whose success is
   * `nativeOk`); only if it succeeds is the background repainted. A failure
   * is swallowed.
   */
  function SyncWindowTheme(v: View, t: string, nativeOk: bool): (r: View)
    ensures r.syncCalls == v.syncCalls + 1 && r.classes == v.classes
    ensures nativeOk ==> r.windowTheme == Some(t) && r.background == Some(BackgroundFor(t))
    ensures !nativeOk ==> r.windowTheme == v.windowTheme && r.background == v.background
  {
    if nativeOk then View(v.classes, Some(BackgroundFor(t)), Some(t), v.syncCalls + 1)
    else v.(syncCalls := v.syncCalls + 1)
  }

  /** ASCII white space as the DOM Standard defines it: tab, line feed, form feed, carriage return and space. */
  predicate IsAsciiWhitespace(c: char) {
    c == '\t' || c == '\n' || c == '\U{000C}' || c == '\r' || c == ' '
  }

  /**
   * A token `DOMTokenList.add` accepts: not empty and free of ASCII white space.
   * For any other token it throws (a `SyntaxError` or an `InvalidCharacterError`,
   * DOM Standard section 7.1) before changing the list.
   */
  predicate ValidToken(t: string) {
    t != "" && forall i :: 0 <= i < |t| ==> !IsAsciiWhitespace(t[i])
  }

  /** Both appearances are tokens the class list accepts. */
  lemma ResolvedIsValidToken(t: string)
    requires IsResolved(t)
    ensures ValidToken(t)
  {
    if t == "light" {
      assert forall i :: 0 <= i < |t| ==> t[i] in "light";
    } else {
      assert forall i :: 0 <= i < |t| ==> t[i] in "dark";
    }
  }

  /**
   * Remove both appearance classes, then add the resolved one. When the token
   * is refused, the removal has already happened and nothing is added.
   */
  function ApplyClass(classes: set<string>, t: string): (r: set<string>)
    ensures ValidToken(t) ==> t in r
    ensures IsResolved(t) ==> (("light" in r) != ("dark" in r)) && t in r
    ensures !ValidToken(t) ==> r == classes - {"light", "dark"}
    ensures r - {"light", "dark", t} == classes - {"light", "dark", t}
  {
    assert IsResolved(t) ==> ValidToken(t) by {
      if IsResolved(t) {
        ResolvedIsValidToken(t);
      }
    }
    classes - {"light", "dark"} + (if ValidToken(t) then {t} else {})
  }

  /**
   * What both the resolve effect and the change listener do with a resolved
   * value: update the classes, then sync the window. When the class list
   * refuses the value, the effect throws after the removal and the window is
   * not synced.
   */
  function ApplyResolved(v: View, t: string, nativeOk: bool): (r: View)
    ensures IsResolved(t) ==> t in r.classes && (("light" in r.classes) != ("dark" in r.classes))
    ensures ValidToken(t) ==> r.syncCalls == v.syncCalls + 1 && r.classes == ApplyClass(v.classes, t)
    ensures !ValidToken(t) ==> r == v.(classes := v.classes - {"light", "dark"})
    ensures ValidToken(t) && nativeOk ==> r.windowTheme == Some(t) && r.background == Some(BackgroundFor(t))
    ensures !nativeOk ==> r.windowTheme == v.windowTheme && r.background == v.background
  {
    var classes := ApplyClass(v.classes, t);
    if ValidToken(t) then SyncWindowTheme(v.(classes := classes), t, nativeOk)
    else v.(classes := classes)
  }
}

=== FILE: wrappers.dfy ===
/** Failure-carrying values shared by every module of the model. */
module Wrappers {

  /** A value that may be absent: JavaScript `null`, Rust `None`. */
  datatype Option<+T> = None | Some(value: T) {
    function GetOr(default: T): (r: T)
      ensures Some? ==> r == value
      ensures None? ==> r == default
    {
      match this
      case Some(v) => v
      case None => default
    }
  }

  /** The outcome of a host call that may throw (a rejected promise, an `Err`). */
  datatype Result<+T> = Ok(value: T) | Err(message: string)
}
